=== FILE: README.md ===
# Oracle backup to S3 and restore: a Dafny model

Two command-line scripts drive Oracle's recovery manager (`rman`).

- `backup_oracle_s3.py [FULL|INCREMENTAL]` composes an RMAN script and runs it into a fresh run directory. It uploads every file the engine left there to S3 and deletes the run directory only when every upload succeeded. It then uploads its own log and prunes old logs. Pruning keeps the newest FULL log, today's INCREMENTAL logs and the current log.
- `restore_oracle.py [FULL|INCREMENTAL]` scans the run directories under the restore source, newest name first. It picks the newest run holding a file whose name contains `DB_BACKUP_FULL` and, for an INCREMENTAL request, the newest run holding a file whose name contains `DB_BACKUP_INCREMENTAL`, both compared case-sensitively. As written, no piece the backup writes carries either marker in that case, so the restore aborts on every tree the backup produces (see Findings). It aborts without a FULL run and falls back to a FULL restore without an incremental run. It then runs an RMAN restore script that catalogs the chosen runs.

The model states this decision logic as pure functions. The engine, the file system, S3 and the clock become inputs: an engine outcome, directory listings, sets of failing keys and names, and pre-formatted time stamps. Each orchestrator returns a report of what it did.

| file | module | contents |
|---|---|---|
| options.dfy | `Options` | `Option`, order-preserving `Filter` and `MapSeq` |
| text.dfy | `Text` | prefixes and suffixes, Python's `sub in s`, ASCII case mapping, `"\n".join` and `split`, `os.path.join` |
| kinds.dfy | `Kinds` | the two kinds and the command-line check |
| listing.dfy | `Listing` | directory listings: regular files and sub-directories |
| ordering.dfy | `Ordering` | Python string order and `sorted(..., reverse=True)` |
| engine.dfy | `Engine` | the engine's outcome, command line and script-file fate |
| backup_script.dfy | `BackupScript` | the backup's RMAN script text |
| backup_engine.dfy | `BackupEngine` | `run_rman_backup`: outcome mapping and script cleanup |
| uploads.dfy | `Uploads` | S3 keys and the per-file upload loop |
| retention.dfy | `Retention` | `upload_and_clean_logs`: keep-set and deletion loop |
| backup_main.dfy | `BackupMain` | the backup's `main` |
| selection.dfy | `Selection` | `find_latest_backup_sets` |
| selection_examples.dfy | `SelectionExamples` | worked selections over small sources |
| marker_case.dfy | `MarkerCase` | the marker test against the names the backup writes (see Findings) |
| restore.dfy | `Restore` | the restore script, `run_rman_restore` and the restore's `main` |

The marker test of the selection is a parameter `MatchMode`. `CaseSensitive` is the test as written. `IgnoreCase` is the corrected test described under Findings. Every general property of `Selection` and `Restore` is proved for both modes.

The backup's engine step turns every outcome it anticipates into a `(success, message)` pair: an `IOError` writing the script, a non-zero exit, a missing `rman` and any other exception from the guarded block. The restore's `run_rman_restore` catches only a non-zero exit, so a missing `rman`, any other exception, a failed script write or a failed script removal escape from it. The model follows the code here (`Restore.RunRmanRestore`, `Restore.EngineMissingEscapes`).

When the backup's engine step succeeds but leaves no regular file in the run directory, `main` returns at backup_oracle_s3.py:198-200, before the log step: the run's log is neither uploaded nor cleaned. The model does the same (`BackupMain.Main`).

## Model

| member | source | states |
|---|---|---|
| Kinds.ParseKind | backup_oracle_s3.py:27-29 | a kind is recognised exactly when there is a second argument whose upper-case form is FULL or INCREMENTAL |
| Kinds.ParseAnyCase | restore_oracle.py:138-142 | the argument is case-insensitive: every spelling whose upper-case form names a kind selects that kind |
| Kinds.ParseLowerName | restore_oracle.py:138-142 | the lower-case names `full` and `incremental` are accepted |
| BackupScript.ScriptShape | backup_oracle_s3.py:66-75 | the script has eight lines; database backup, archived-log backup and archived-log expiry each occur exactly once and in that order, between the one channel allocation and the one release, inside `RUN { }` and followed by `exit;` |
| BackupScript.DbCommandByKind | backup_oracle_s3.py:55-61 | the database command is a level-1 incremental exactly for kind INCREMENTAL and a full backup for any other kind; both name pieces `{dir}/db_backup_{kind}_%U` and carry tag `BK_{kind}_{ts}` |
| BackupScript.ScriptFileRoundTrip | backup_oracle_s3.py:77 | with newline-free parameters, splitting the written file on newlines gives back the eight lines |
| BackupEngine.RunRmanBackup | backup_oracle_s3.py:53-126 | success exactly when the script is written and the engine exits 0; a write failure leaves no script text and never builds the command; once written, the file holds the script composed for the kind, output directory and tag timestamp, the command points at that file, and the file is removed unless the removal fails |
| BackupEngine.MessageIdentifiesPath | backup_oracle_s3.py:86-119 | every failure reaches the caller as the same `False`, yet the message alone tells which path was taken (write error, non-zero exit, missing `rman`, other exception, success) |
| BackupEngine.CleanupDoesNotAffectOutcome | backup_oracle_s3.py:120-126 | a failed removal of the temporary script changes neither the flag, the message, the script text nor the command |
| Uploads.ArtifactKeyRoundTrip | backup_oracle_s3.py:208 | an artifact key can be parsed back into the kind and the file name it was built from |
| Uploads.ArtifactKeyInjective | backup_oracle_s3.py:208 | two artifacts share a key only when kind and file name agree |
| Uploads.UploadEach | backup_oracle_s3.py:204-217 | one attempt per file, in listing order, under the file's own key; an earlier failure never skips a later file |
| Uploads.AllSucceeded | backup_oracle_s3.py:204-214 | the aggregate flag is true exactly when every attempt succeeded |
| Uploads.UploadLoop | backup_oracle_s3.py:204-217 | the loop as written performs the same attempts as `UploadEach`, and its flag is true exactly when no file's key fails |
| Retention.LogNameClassification | backup_oracle_s3.py:151-161 | a run's own log name is a backup log; it is a FULL log exactly when its kind is FULL, and one of today's INCREMENTAL logs exactly when its kind is INCREMENTAL and its stamp starts with today's date |
| Retention.LogFileNameInjective | backup_oracle_s3.py:31 | a log name determines the stamp it was built from |
| Retention.MaxByCtime | backup_oracle_s3.py:154 | `max(..., key=getctime)` returns the first position of a largest creation time |
| Retention.FirstMaxUnique | backup_oracle_s3.py:154 | there is only one such first position, so the choice is deterministic |
| Retention.LatestFull | backup_oracle_s3.py:153-154 | no FULL log is chosen exactly when no listed log is a FULL log; otherwise the first FULL log of largest creation time |
| Retention.NewestFullIsLatest | backup_oracle_s3.py:153-158 | a FULL log created strictly after every other FULL log is the one kept |
| Retention.KeepSetIsPolicy | backup_oracle_s3.py:156-166 | a name is kept exactly when it is the current log, the newest FULL log, or one of today's INCREMENTAL logs |
| Retention.DeleteStale | backup_oracle_s3.py:168-174 | every listed log outside the keep-set is attempted exactly once, in listing order (one deletion per stale entry, naming that entry), nothing inside the keep-set is, and a failed removal does not stop the others |
| Retention.CleanLogs | backup_oracle_s3.py:150-174 | the current log is always kept, only `backup_log_*.log` files are ever attempted, and the attempted names are exactly the backup logs outside the keep-set |
| Retention.WhatSurvives | backup_oracle_s3.py:151-174 | a listed file survives exactly when it is not a backup log, or the policy keeps it, or its removal failed |
| Retention.CleanOnlyBackupLogs | backup_oracle_s3.py:168-174 | on a listing of backup logs with no failing removal, exactly the names outside the keep-set are removed |
| Retention.UploadAndCleanLogs | backup_oracle_s3.py:139-177 | the log goes under `S3_LOG_PREFIX` plus its name; the cleanup runs whether or not that upload succeeded and is skipped only when listing the log directory raises; the current log is never deleted |
| Retention.KeepScenario | backup_oracle_s3.py:150-174 | with logs FULL@1, FULL@2, today's INCREMENTAL, yesterday's INCREMENTAL and the current log, the keep-set and the survivors are the newer FULL, today's INCREMENTAL and the current log, and the other two are removed |
| BackupMain.Main | backup_oracle_s3.py:180-232 | usage exactly without a valid kind; the engine step writes the kind's script aimed at the fresh run directory with the run's tag timestamp, and its report, including whether the temporary script was removed, is the engine step's for the world's outcomes; a failed engine step uploads nothing and keeps the run directory; after a successful step every regular file is uploaded once, in order, under its key; the run directory goes exactly when there was something to upload and all uploads succeeded; the logs are handled on every path except a successful step that left no file, the run's log is uploaded under its key and counts as uploaded exactly when that key does not fail, and the cleanup runs on the listed log directory with today's date, the run's own log as current, and the world's failing removals |
| BackupMain.MainRunsKind | backup_oracle_s3.py:181-193 | a valid kind runs a backup of that kind, names the log after the kind, uses the fresh run directory, and, once the script is written, runs that kind's script composed for the run directory and tag timestamp |
| BackupMain.RemovalOnlyAfterFullUpload | backup_oracle_s3.py:219-227 | removal of the run directory implies a successful engine step, at least one file, and every file's upload succeeded |
| BackupMain.OneFailedUploadKeepsRunDir | backup_oracle_s3.py:211-227 | a single failing upload keeps the run directory |
| BackupMain.FullUploadRemovesRunDir | backup_oracle_s3.py:219-225 | a successful step with at least one file, all uploaded, removes the run directory unless the removal itself fails |
| BackupMain.RemovalFailureIsolated | backup_oracle_s3.py:221-225 | a failed removal of the run directory changes nothing else the run does |
| BackupMain.FullRunScenario | backup_oracle_s3.py:180-232 | a FULL run whose three files all upload removes its run directory, uploads its log, and keeps that log as the latest FULL log |
| BackupMain.IncrementalRunScenario | backup_oracle_s3.py:180-232 | an INCREMENTAL run with one failing upload out of two keeps its run directory, still uploads its log, and keeps it as one of today's INCREMENTAL logs |
| Listing.RegularFiles | backup_oracle_s3.py:196 | the names taken are exactly the regular files of the listing, one per regular-file entry, in listing order |
| Listing.SubdirNames | restore_oracle.py:49 | the names taken are exactly the sub-directories of the listing, one name per directory entry, in listing order |
| Selection.Runs | restore_oracle.py:49 | the candidate runs are the sub-directory names, each as often as the listing holds it (a permutation), sorted in descending string order |
| Selection.FirstMarked | restore_oracle.py:55-60 | the scan stops at the first marked run, and finds none exactly when no run is marked |
| Selection.NewestMarked | restore_oracle.py:55-60 | the run found is the marked run with the greatest name, and none is found exactly when no run carries the marker |
| Selection.LatestMarked | restore_oracle.py:55-60 | the path returned is the root joined with the newest marked run, or nothing when no run is marked |
| Selection.FindLatestBackupSets | restore_oracle.py:40-77 | a missing source gives nothing; the FULL path is the newest FULL-marked run; without a FULL run nothing is returned for either kind; the INCREMENTAL path is looked for only on an INCREMENTAL request, and is the newest INCREMENTAL-marked run, with no regard to where the FULL run was found |
| Selection.ChildrenOfUnique | restore_oracle.py:56-57 | in a listing with unique names, the files seen for a run are those of its sub-directory |
| SelectionExamples.GenerationScenario | restore_oracle.py:40-77 | with runs `[r3 (INCREMENTAL), r2 (FULL), r1 (FULL)]` in descending order, a FULL request selects `r2`, and an INCREMENTAL request selects `r2` and `r3` |
| SelectionExamples.IncrementalMayPrecedeFull | restore_oracle.py:66-73 | the INCREMENTAL run may be older than the FULL run it is restored after |
| MarkerCase.DbPieceLacksMarker | restore_oracle.py:58 | as written, no database piece the backup names contains either marker |
| MarkerCase.NoRunMarkedAsWritten | restore_oracle.py:55-60 | as written, no run of a tree made of backup pieces counts as marked |
| MarkerCase.AsWrittenFindsNothing | restore_oracle.py:55-64 | as written, the selection returns nothing for such a tree, whatever the kind |
| MarkerCase.OneRunCounterexample | restore_oracle.py:55-64 | for the tree of one full backup run, the test as written finds nothing and the corrected test finds that run |
| MarkerCase.IgnoreCaseFindsPiece | restore_oracle.py:58 | compared without regard to case, a kind's database piece carries that kind's marker |
| MarkerCase.IgnoreCaseMarksRun | restore_oracle.py:55-60 | corrected, a run holding a database piece of a kind is marked for that kind |
| MarkerCase.CorrectedFindsBackup | restore_oracle.py:55-64 | corrected, a source with a full database piece in some run yields a FULL path |
| MarkerCase.CorrectedFindsIncremental | restore_oracle.py:66-73 | corrected, an INCREMENTAL request over a source with full and incremental pieces yields an INCREMENTAL path |
| Restore.CatalogLineRoundTrip | restore_oracle.py:91 | a CATALOG line can be read back into its path |
| Restore.RestoreScriptCatalogs | restore_oracle.py:87-101 | the script catalogs exactly the FULL path, then the INCREMENTAL path when one is given, and nothing else |
| Restore.RestoreScriptShape | restore_oracle.py:87-101 | eight lines without an incremental path and nine with one: shutdown and mount first, the CATALOG lines next, restore, recover and open last, inside `RUN { }` |
| Restore.RestoreScriptFileRoundTrip | restore_oracle.py:103-109 | with newline-free paths, the written file splits back into the script lines |
| Restore.RunRmanRestore | restore_oracle.py:80-132 | a pair is returned exactly when the script is written, the engine exits and the script is removed; it is `True` exactly for exit 0, with the failure message carrying stderr otherwise; every other outcome escapes; the script written is the whole restore script for the given runs; once written, the script is removed unless the removal fails |
| Restore.RestoreMain | restore_oracle.py:134-160 | usage exactly without a valid kind; abort exactly when the selection yields no FULL path; a FULL request is never restored as INCREMENTAL; an INCREMENTAL request stays one exactly when an incremental run was found; the script is the restore script for the FULL run plus the incremental run only for an INCREMENTAL restore, and catalogs them in that order |
| Restore.RestoreWith | restore_oracle.py:151-155 | the downgrade and the restore step keep the requested kind, the selection, and the catalog order above |
| Restore.AbortsIffNoFull | restore_oracle.py:145-149 | with a non-empty source path, the restore aborts exactly when the restore source is missing or no run carries the FULL marker |
| Restore.RestoresNewestFull | restore_oracle.py:145-155 | the first path cataloged is the newest FULL-marked run |
| Restore.DowngradeWithoutIncremental | restore_oracle.py:151-155 | an INCREMENTAL request over FULL runs only is carried out as a FULL restore with one CATALOG line |
| Restore.EngineFailureExitsZero | restore_oracle.py:125-129 | a non-zero engine exit gives `False` with stderr in the message, and the process still exits with status 0 |
| Restore.EngineMissingEscapes | restore_oracle.py:118-132 | a missing `rman` escapes the restore step, after the script is still removed, and the process exits with status 1 |
| Restore.ExitZeroMeansReturned | restore_oracle.py:134-160 | exit status 0 means the restore ran and its step returned, successfully or not |
| Restore.OneRunRestore | restore_oracle.py:145-155 | on the tree of one full backup run, the restore as written aborts, and the corrected restore catalogs that run |

## Left out

- Real I/O is not modelled: the engine process, S3, the file system and the clock enter as recorded answers and pre-formatted stamps.
- Logging and every log message are not modelled. Only the messages the engine steps return are modelled.
- Loading `.env` and reading the environment are not modelled. The settings are parameters (`BackupMain.Config`, and `root` and `connect` for the restore).
- `os.path.normpath` is not modelled. The restore source is assumed non-empty where a lemma needs it, which `normpath` guarantees.
- `sys.exit` is modelled as a report constructor or as `Restore.ExitStatus`.
- Creating the log directory and the run directory with `os.makedirs` at backup_oracle_s3.py:25 and :190 is not modelled; it is assumed to succeed. A failure of the `makedirs` inside the engine step is covered by the `Raised` outcome.
- Creating the S3 client at backup_oracle_s3.py:130 sits outside the `try`. An exception there would end the run, and this is not modelled: every upload answers true or false.
- `getctime` returns a float in Python. The model uses an integer, since only the order of creation times matters.
- A `getctime` or `listdir` failure inside the cleanup is caught by the catch-all at backup_oracle_s3.py:176. It is modelled as a cleanup that does not happen (`logListing == None`). Removals made before such a failure are not modelled.
- Case mapping covers ASCII letters only. Python's `upper()` and `lower()` also map other letters, so a non-ASCII spelling that Python upper-cases to a kind name (`ıncremental`, with U+0131, becomes `INCREMENTAL`) is accepted by both scripts but rejected by `Kinds.ParseKind`; likewise the `IgnoreCase` marker test does not upper-case non-ASCII letters of a file name.
- The path separator is `/` (POSIX `os.sep`).
- Listing order is taken as given. Run directories are assumed to have distinct names, as a real listing has.
- BackupEngine.RunRmanBackup: a script whose `open` succeeds but whose `write` fails is modelled as not written, although a partial file may remain.
- Restore.RunRmanRestore: a failed script write is modelled as not written, although `open` may have created the file before the write failed.
- Listing the run directory at backup_oracle_s3.py:196 is not guarded by any `try`. A failure there ends the backup with an uncaught exception and exit status 1, before any upload or log step. The model's `runListing` is always a complete listing, so this path is not modelled.
- The script write at backup_oracle_s3.py:83-84 catches only `IOError`. Any other exception from it, such as a `UnicodeEncodeError` for a path the file's encoding cannot represent, escapes `run_rman_backup` and ends the backup with exit status 1. The model's `scriptWriteError` stands for the caught `IOError` alone, so this path is not modelled.
- Listing failures on the restore side are not modelled. `os.listdir` of the restore source at restore_oracle.py:49 (a path that exists but is not a readable directory) and of a run directory at :57 and :70 sit outside any `try`, so such a failure ends the restore with an uncaught exception and exit status 1. The model's source is either missing (`None`) or fully listed, and every run directory visited by a scan is taken as readable.
- The logs of the engine's stdout and stderr are not modelled; only the stderr carried in the failure message is.

## Findings

| source | as written | input that shows it | evidently intended | confidence | as-written member | corrected member |
|---|---|---|---|---|---|---|
| restore_oracle.py:58 | a run counts as FULL when one of its file names contains `DB_BACKUP_FULL`, compared case-sensitively; line 71 does the same with `DB_BACKUP_INCREMENTAL` | a restore source whose only run holds `db_backup_FULL_0au5kd8r_1_1` and `archivelog_0bu5kd9a_1_1`, the names the backup asks RMAN for at backup_oracle_s3.py:59-63 | the restore recognises the pieces the backup writes, so the marker comparison ignores case | high; not executed | MarkerCase.OneRunCounterexample | MarkerCase.IgnoreCaseFindsPiece |

The backup names its pieces `db_backup_{KIND}_%U`, with the kind in upper case between lower-case text. RMAN expands `%U` to lower-case letters and digits. The marker's `B_B` would have to fall on upper-case letters on both sides of one other character. In such a name the only upper-case letters are the kind, one contiguous block of letters, so this can never happen (`Text.UpperGapAbsent`). As written, the restore therefore aborts on every source tree the backup produces (`MarkerCase.AsWrittenFindsNothing`, `Restore.OneRunRestore`). With the comparison made on the upper-cased name (`MatchMode.IgnoreCase`), every database piece carries its kind's marker, and the restore finds the run (`MarkerCase.CorrectedFindsBackup`, `MarkerCase.CorrectedFindsIncremental`).

=== FILE: backup_engine.dfy ===
/** The control part of the backup's engine step: write the composed script
    to a temporary file, run the engine on it, map every outcome to a
    `(success, message)` pair, and remove the temporary script on every path
    that got as far as writing it. */
module BackupEngine {
  import opened Options
  import opened Text
  import opened Engine
  import BackupScript

  const WriteErrorPrefix: string := "Erro ao criar script RMAN: "
  const EngineErrorPrefix: string := "Falha no RMAN: "
  const NotFoundMessage: string := "Comando 'rman' não encontrado. " + "Verifique se o RMAN está no PATH."
  const UnexpectedPrefix: string := "Erro inesperado durante o backup RMAN: "
  const SuccessMessage: string := "Backup RMAN concluído com sucesso."

  datatype StepReport = StepReport(
    ok: bool,
    msg: string,
    content: Option<string>,       // the script text on disk, once written
    command: Option<seq<string>>,  // the engine command, once the script is on disk
    script: ScriptFate)

  /** `run_rman_backup(kind, output_dir)`. `ts` is the tag timestamp,
      `writeError` is the `IOError` text when opening or writing the script
      file fails, `engine` is how the guarded block ends (creating the
      output directory included: a failure there is `Raised`), and
      `removeOk` says whether `os.remove` of the script succeeds. */
  function RunRmanBackup(kind: string, outputDir: string, ts: string, tempDir: string, connect: string,
                         writeError: Option<string>, engine: EngineOutcome, removeOk: bool): (r: StepReport)
    ensures r.ok <==> writeError.None? && Succeeded(engine)
    ensures writeError.Some? ==> r.script == NotWritten && r.content.None? && r.command.None?
    // the file the engine runs holds the script composed for this kind,
    // output directory and tag timestamp
    ensures writeError.None? ==> r.content == Some(BackupScript.ScriptContent(kind, outputDir, ts))
    ensures writeError.None? ==> r.script != NotWritten && (r.script == Removed <==> removeOk)
    ensures writeError.None? ==>
      r.command == Some(Command(connect, BackupScript.ScriptPath(tempDir, kind)))
  {
    match writeError
    case Some(e) => StepReport(false, WriteErrorPrefix + e, None, None, NotWritten)
    case None =>
      var text := Some(BackupScript.ScriptContent(kind, outputDir, ts));
      var fate := if removeOk then Removed else Left;
      var cmd := Some(Command(connect, BackupScript.ScriptPath(tempDir, kind)));
      match engine
      case Exited(code, _, stderr) =>
        if code == 0 then StepReport(true, SuccessMessage, text, cmd, fate)
        else StepReport(false, EngineErrorPrefix + stderr, text, cmd, fate)
      case NotFound => StepReport(false, NotFoundMessage, text, cmd, fate)
      case Raised(d) => StepReport(false, UnexpectedPrefix + d, text, cmd, fate)
  }

  /** The path the step took, as the caller's log should be able to tell it. */
  datatype StepPath = WriteFailed | Completed | EngineFailed | EngineMissing | Unexpected | Unrecognised

  function PathOf(writeError: Option<string>, engine: EngineOutcome): StepPath {
    if writeError.Some? then WriteFailed
    else match engine
      case Exited(code, _, _) => if code == 0 then Completed else EngineFailed
      case NotFound => EngineMissing
      case Raised(_) => Unexpected
  }

  /** Reads the path back from the message text alone. */
  function ClassifyMessage(msg: string): StepPath {
    if StartsWith(msg, WriteErrorPrefix) then WriteFailed
    else if StartsWith(msg, EngineErrorPrefix) then EngineFailed
    else if msg == NotFoundMessage then EngineMissing
    else if StartsWith(msg, UnexpectedPrefix) then Unexpected
    else if msg == SuccessMessage then Completed
    else Unrecognised
  }

  /** All failures reach the caller as the same `false`, yet each path leaves
      its own message: the message identifies the path taken. */
  lemma MessageIdentifiesPath(kind: string, outputDir: string, ts: string, tempDir: string, connect: string,
                              writeError: Option<string>, engine: EngineOutcome, removeOk: bool)
    ensures ClassifyMessage(RunRmanBackup(kind, outputDir, ts, tempDir, connect, writeError, engine, removeOk).msg)
      == PathOf(writeError, engine)
  {
    var msg := RunRmanBackup(kind, outputDir, ts, tempDir, connect, writeError, engine, removeOk).msg;
    match writeError
    case Some(e) =>
      StartsWithConcat(WriteErrorPrefix, e);
    case None =>
      match engine
      case Exited(code, _, stderr) =>
        if code == 0 {
          PrefixMismatch(msg, WriteErrorPrefix, 0);
          PrefixMismatch(msg, EngineErrorPrefix, 0);
          assert msg[0] != NotFoundMessage[0];
          PrefixMismatch(msg, UnexpectedPrefix, 0);
        } else {
          CharOfConcat(EngineErrorPrefix, stderr, 0);
          PrefixMismatch(msg, WriteErrorPrefix, 0);
          StartsWithConcat(EngineErrorPrefix, stderr);
        }
      case NotFound =>
        PrefixMismatch(msg, WriteErrorPrefix, 0);
        PrefixMismatch(msg, EngineErrorPrefix, 0);
      case Raised(d) =>
        CharOfConcat(UnexpectedPrefix, d, 0);
        CharOfConcat(UnexpectedPrefix, d, 5);
        PrefixMismatch(msg, WriteErrorPrefix, 5);
        PrefixMismatch(msg, EngineErrorPrefix, 0);
        assert msg[0] != NotFoundMessage[0];
        StartsWithConcat(UnexpectedPrefix, d);
  }

  /** Whether the temporary script could be removed changes nothing the
      caller sees: success flag and message depend only on the write and the
      engine. */
  lemma CleanupDoesNotAffectOutcome(kind: string, outputDir: string, ts: string, tempDir: string, connect: string,
                                    writeError: Option<string>, engine: EngineOutcome)
    ensures var a := RunRmanBackup(kind, outputDir, ts, tempDir, connect, writeError, engine, true);
            var b := RunRmanBackup(kind, outputDir, ts, tempDir, connect, writeError, engine, false);
            a.ok == b.ok && a.msg == b.msg && a.content == b.content && a.command == b.command
  {
  }
}

=== FILE: backup_main.dfy ===
/** The backup's `main`: check the kind, run the engine step into a fresh
    run directory, upload every regular file the engine left there, remove
    the run directory only when every upload succeeded, and finally upload
    the run's own log and clean old logs. The environment (clock, file
    system, engine, object store) enters as a `World` of recorded answers. */
module BackupMain {
  import opened Options
  import opened Text
  import opened Kinds
  import opened Engine
  import opened Listing
  import BackupEngine
  import BackupScript
  import Uploads
  import Retention

  /** The settings read from the environment at start-up. */
  datatype Config = Config(
    tempBackupDir: string,   // TEMP_BACKUP_DIR
    backupPrefix: string,    // S3_BACKUP_PREFIX
    logPrefix: string,       // S3_LOG_PREFIX
    connect: string)         // RMAN_TARGET_CONNECT_STRING

  /** The clock readings of one run, already formatted. */
  datatype Clock = Clock(
    logStamp: string,    // `%Y%m%d_%H%M%S` in the log file name
    runStamp: string,    // `%Y%m%d_%H%M%S` of the run directory
    tagStamp: string,    // `%m%d%H%M%S` in the backup tag
    today: string)       // `%Y%m%d` when the logs are cleaned

  /** How the outside world answers this run. */
  datatype World = World(
    scriptWriteError: Option<string>,       // the IOError writing the script, if any
    engine: EngineOutcome,
    scriptRemoveOk: bool,
    runListing: seq<Entry>,                  // the run directory after the engine
    failedKeys: set<string>,                 // object keys whose upload fails
    rmtreeOk: bool,
    logListing: Option<seq<Retention.LogEntry>>,  // None: listing the log directory raised
    failingRemovals: set<string>)            // log names whose removal raises

  /** What became of the run directory. */
  datatype RunDirFate = Kept | Deleted | DeleteFailed

  datatype Report =
    | Usage(logName: string)
      // no valid kind: usage message and exit status 1
    | Ran(kind: Kind, logName: string, runDir: string, step: BackupEngine.StepReport,
          uploads: seq<Uploads.Upload>, runDirFate: RunDirFate, logs: Option<Retention.LogReport>)

  const UnknownKind: string := "UNKNOWN"

  /** The kind as the log file name spells it. */
  function LogKind(argv: seq<string>): string {
    match ParseKind(argv)
    case Some(k) => Name(k)
    case None => UnknownKind
  }

  /** `{TEMP_BACKUP_DIR}/{%Y%m%d_%H%M%S}_run`. */
  function RunDir(cfg: Config, clock: Clock): string {
    PathJoin(cfg.tempBackupDir, clock.runStamp + "_run")
  }

  /** The run after the kind check: engine, uploads, run-directory removal,
      logs. */
  function Backup(kind: Kind, logName: string, cfg: Config, clock: Clock, w: World): (r: Report)
    ensures r.Ran? && r.kind == kind && r.logName == logName
  {
    var runDir := RunDir(cfg, clock);
    var step := BackupEngine.RunRmanBackup(Name(kind), runDir, clock.tagStamp, cfg.tempBackupDir, cfg.connect,
                                           w.scriptWriteError, w.engine, w.scriptRemoveOk);
    var logs := Retention.UploadAndCleanLogs(cfg.logPrefix, logName, w.failedKeys, w.logListing,
                                             clock.today, w.failingRemovals);
    if !step.ok then
      Ran(kind, logName, runDir, step, [], Kept, Some(logs))
    else
      var files := RegularFiles(w.runListing);
      if |files| == 0 then
        Ran(kind, logName, runDir, step, [], Kept, None)
      else
        var uploads := Uploads.UploadEach(cfg.backupPrefix, kind, files, w.failedKeys);
        var fate :=
          if !Uploads.AllSucceeded(uploads) then Kept
          else if w.rmtreeOk then Deleted
          else DeleteFailed;
        Ran(kind, logName, runDir, step, uploads, fate, Some(logs))
  }

  /** `main()` with the module-level kind check folded in. */
  function Main(argv: seq<string>, cfg: Config, clock: Clock, w: World): (r: Report)
    ensures r.Usage? <==> ParseKind(argv).None?
    ensures r.logName == Retention.LogFileName(LogKind(argv), clock.logStamp)
    ensures r.Ran? ==> Some(r.kind) == ParseKind(argv)
    // the engine step is told the kind's name and the fresh run directory
    ensures r.Ran? ==> (r.runDir == RunDir(cfg, clock)
      && (r.step.ok <==> w.scriptWriteError.None? && Succeeded(w.engine)))
    // the script on disk is the one composed for the kind, aimed at the run
    // directory and tagged with the run's tag timestamp, and the engine runs
    // the kind's script file
    ensures r.Ran? && w.scriptWriteError.None? ==>
      && r.step.content == Some(BackupScript.ScriptContent(Name(r.kind), r.runDir, clock.tagStamp))
      && r.step.command == Some(Command(cfg.connect, BackupScript.ScriptPath(cfg.tempBackupDir, Name(r.kind))))
    // the temporary script is removed after the engine ran exactly when the
    // removal succeeds, and the whole step report is the engine step's own
    ensures r.Ran? ==>
      && (w.scriptWriteError.Some? ==> r.step.script == NotWritten)
      && (w.scriptWriteError.None? ==> r.step.script != NotWritten && (r.step.script == Removed <==> w.scriptRemoveOk))
    ensures r.Ran? ==>
      r.step == BackupEngine.RunRmanBackup(Name(r.kind), r.runDir, clock.tagStamp, cfg.tempBackupDir, cfg.connect,
                                           w.scriptWriteError, w.engine, w.scriptRemoveOk)
    // files are uploaded only after a successful engine step: each regular
    // file of the run directory once, in listing order, under its own key
    ensures r.Ran? && !r.step.ok ==> r.uploads == [] && r.runDirFate == Kept
    ensures r.Ran? && r.step.ok ==>
      && |r.uploads| == |RegularFiles(w.runListing)|
      && forall i :: 0 <= i < |r.uploads| ==>
           && r.uploads[i].file == RegularFiles(w.runListing)[i]
           && r.uploads[i].key == Uploads.ArtifactKey(cfg.backupPrefix, r.kind, r.uploads[i].file)
           && (r.uploads[i].ok <==> r.uploads[i].key !in w.failedKeys)
    // the run directory goes only when there was something to upload and
    // every upload succeeded
    ensures r.Ran? ==>
      (r.runDirFate != Kept <==> |r.uploads| > 0 && forall i :: 0 <= i < |r.uploads| ==> r.uploads[i].ok)
    ensures r.Ran? ==> (r.runDirFate == Deleted <==> r.runDirFate != Kept && w.rmtreeOk)
    // the logs are handled on every path but one: a successful engine step
    // that left no regular file returns early
    ensures r.Ran? ==> (r.logs.None? <==> r.step.ok && |RegularFiles(w.runListing)| == 0)
    ensures r.Ran? && r.logs.Some? ==>
      && r.logs.value.key == Uploads.LogKey(cfg.logPrefix, r.logName)
      && (r.logs.value.uploaded <==> r.logs.value.key !in w.failedKeys)
      && (r.logs.value.cleanup.Some? <==> w.logListing.Some?)
    // the cleanup judges the log directory by today's date, keeps the run's
    // own log, and meets the world's failing removals
    ensures r.Ran? && r.logs.Some? && w.logListing.Some? ==>
      r.logs.value.cleanup == Some(Retention.CleanLogs(w.logListing.value, clock.today, r.logName, w.failingRemovals))
  {
    var logName := Retention.LogFileName(LogKind(argv), clock.logStamp);
    match ParseKind(argv)
    case None => Usage(logName)
    case Some(kind) => Backup(kind, logName, cfg, clock, w)
  }

  /** The central promise: the run directory is removed (or its removal
      attempted) only after the engine succeeded, produced at least one
      regular file, and every one of those files reached the object store. */
  lemma RemovalOnlyAfterFullUpload(argv: seq<string>, cfg: Config, clock: Clock, w: World)
    ensures var r := Main(argv, cfg, clock, w);
      r.Ran? && r.runDirFate != Kept ==>
        && w.scriptWriteError.None? && Succeeded(w.engine)
        && |RegularFiles(w.runListing)| > 0
        && forall f :: f in RegularFiles(w.runListing) ==>
             Uploads.ArtifactKey(cfg.backupPrefix, r.kind, f) !in w.failedKeys
  {
    var r := Main(argv, cfg, clock, w);
    if r.Ran? && r.runDirFate != Kept {
      var files := RegularFiles(w.runListing);
      forall f | f in files ensures Uploads.ArtifactKey(cfg.backupPrefix, r.kind, f) !in w.failedKeys {
        var i :| 0 <= i < |files| && files[i] == f;
        assert r.uploads[i].ok;
      }
    }
  }

  /** A single regular file whose upload fails keeps the run directory. */
  lemma OneFailedUploadKeepsRunDir(argv: seq<string>, cfg: Config, clock: Clock, w: World, f: string)
    requires ParseKind(argv).Some?
    requires File(f) in w.runListing
    requires Uploads.ArtifactKey(cfg.backupPrefix, ParseKind(argv).value, f) in w.failedKeys
    ensures Main(argv, cfg, clock, w).runDirFate == Kept
  {
    var r := Main(argv, cfg, clock, w);
    var files := RegularFiles(w.runListing);
    if r.step.ok {
      var i :| 0 <= i < |files| && files[i] == f;
      assert !r.uploads[i].ok;
    }
  }

  /** Conversely, when the engine succeeds, leaves at least one regular file
      and every upload succeeds, the run directory is removed; only the
      removal itself can still fail. */
  lemma FullUploadRemovesRunDir(argv: seq<string>, cfg: Config, clock: Clock, w: World)
    requires ParseKind(argv).Some?
    requires w.scriptWriteError.None? && Succeeded(w.engine)
    requires |RegularFiles(w.runListing)| > 0
    requires forall f :: f in RegularFiles(w.runListing) ==>
      Uploads.ArtifactKey(cfg.backupPrefix, ParseKind(argv).value, f) !in w.failedKeys
    ensures Main(argv, cfg, clock, w).runDirFate == (if w.rmtreeOk then Deleted else DeleteFailed)
  {
    var r := Main(argv, cfg, clock, w);
    var files := RegularFiles(w.runListing);
    forall i | 0 <= i < |r.uploads| ensures r.uploads[i].ok {
      assert files[i] in files;
    }
  }

  /** A failed removal of the run directory changes nothing else the run does. */
  lemma RemovalFailureIsolated(argv: seq<string>, cfg: Config, clock: Clock, w: World)
    ensures var a := Main(argv, cfg, clock, w.(rmtreeOk := true));
            var b := Main(argv, cfg, clock, w.(rmtreeOk := false));
            a.Ran? ==> (b.Ran? && a.step == b.step && a.uploads == b.uploads && a.logs == b.logs
              && (a.runDirFate == Deleted <==> b.runDirFate == DeleteFailed))
  {
  }

  /** A valid kind argument runs the backup of that kind: the log is named
      after the kind, the run directory is the fresh one, and, once the
      script is on disk, the engine runs that kind's script, composed for the
      run directory and the run's tag timestamp. */
  lemma MainRunsKind(argv: seq<string>, k: Kind, cfg: Config, clock: Clock, w: World)
    requires ParseKind(argv) == Some(k)
    ensures var r := Main(argv, cfg, clock, w);
      && r.Ran? && r.kind == k
      && r.logName == Retention.LogFileName(Name(k), clock.logStamp)
      && r.runDir == RunDir(cfg, clock)
      && (w.scriptWriteError.None? ==>
            && r.step.content == Some(BackupScript.ScriptContent(Name(k), RunDir(cfg, clock), clock.tagStamp))
            && r.step.command == Some(Command(cfg.connect, BackupScript.ScriptPath(cfg.tempBackupDir, Name(k)))))
  {
  }

  /** A FULL run whose engine step leaves three files, all uploaded: the run
      directory is removed, the run's log is uploaded, and, being the newest
      FULL log in the log directory, it is kept as the latest FULL log. */
  lemma FullRunScenario(prog: string, cfg: Config, clock: Clock, w: World, a: string, b: string, c: string,
                        older: seq<Retention.LogEntry>, t: int)
    requires w.scriptWriteError.None? && Succeeded(w.engine)
    requires w.runListing == FilesNamed([a, b, c])
    requires forall f :: f in [a, b, c] ==> Uploads.ArtifactKey(cfg.backupPrefix, Full, f) !in w.failedKeys
    requires w.rmtreeOk
    requires NoUpper(clock.logStamp)
    requires Uploads.LogKey(cfg.logPrefix, Retention.LogFileName("FULL", clock.logStamp)) !in w.failedKeys
    requires w.logListing == Some(older + [Retention.LogEntry(Retention.LogFileName("FULL", clock.logStamp), t)])
    requires forall e :: e in older ==> e.ctime < t
    ensures var r := Main([prog, "FULL"], cfg, clock, w);
      && r.Ran? && r.kind == Full && |r.uploads| == 3 && r.runDirFate == Deleted
      && r.logs.Some? && r.logs.value.uploaded && r.logs.value.cleanup.Some?
      && Retention.LatestFull(Retention.BackupLogs(w.logListing.value))
           == Some(Retention.LogEntry(r.logName, t))
      && r.logName in r.logs.value.cleanup.value.keep
  {
    NameIsUpper(Full);
    ParseAnyCase(prog, "FULL", Full);
    var logName := Retention.LogFileName("FULL", clock.logStamp);
    FullRunBackup(cfg, clock, w, a, b, c, logName);
    NewestRunLog(clock.logStamp, older, t);
  }

  lemma FullRunBackup(cfg: Config, clock: Clock, w: World, a: string, b: string, c: string, logName: string)
    requires w.scriptWriteError.None? && Succeeded(w.engine)
    requires w.runListing == FilesNamed([a, b, c])
    requires forall f :: f in [a, b, c] ==> Uploads.ArtifactKey(cfg.backupPrefix, Full, f) !in w.failedKeys
    requires w.rmtreeOk
    requires Uploads.LogKey(cfg.logPrefix, logName) !in w.failedKeys
    requires w.logListing.Some?
    ensures var r := Backup(Full, logName, cfg, clock, w);
      && |r.uploads| == 3 && r.runDirFate == Deleted
      && r.logs.Some? && r.logs.value.uploaded && r.logs.value.cleanup.Some?
      && logName in r.logs.value.cleanup.value.keep
  {
    RegularFilesOfFiles([a, b, c]);
    var files := RegularFiles(w.runListing);
    assert files == [a, b, c];
    var ups := Uploads.UploadEach(cfg.backupPrefix, Full, files, w.failedKeys);
    assert Uploads.AllSucceeded(ups) by {
      forall i | 0 <= i < |ups| ensures ups[i].ok {
        assert files[i] in [a, b, c];
      }
    }
  }

  /** The log a FULL run writes, created after every other listed log, is
      the latest FULL log. */
  lemma NewestRunLog(stamp: string, older: seq<Retention.LogEntry>, t: int)
    requires NoUpper(stamp)
    requires forall e :: e in older ==> e.ctime < t
    ensures var cur := Retention.LogEntry(Retention.LogFileName("FULL", stamp), t);
      Retention.LatestFull(Retention.BackupLogs(older + [cur])) == Some(cur)
  {
    var cur := Retention.LogEntry(Retention.LogFileName("FULL", stamp), t);
    assert AllUpper("FULL");
    Retention.LogNameIsBackup("FULL", stamp);
    Retention.LogNameFull("FULL", stamp);
    var listing := older + [cur];
    var logs := Retention.BackupLogs(listing);
    assert cur in listing;
    forall x | x in logs && Retention.IsFullLog(x.name) && x != cur ensures x.ctime < t {
      assert x in listing;
      assert x in older;
    }
    Retention.NewestFullIsLatest(logs, cur);
  }

  /** An INCREMENTAL run whose engine step leaves two files, the second of
      which fails to upload: the run directory stays, the run reports the
      failed upload, and the run's log is still uploaded and kept, being one
      of today's INCREMENTAL logs. */
  lemma IncrementalRunScenario(prog: string, cfg: Config, clock: Clock, w: World, a: string, b: string)
    requires w.scriptWriteError.None? && Succeeded(w.engine)
    requires w.runListing == FilesNamed([a, b])
    requires Uploads.ArtifactKey(cfg.backupPrefix, Incremental, a) !in w.failedKeys
    requires Uploads.ArtifactKey(cfg.backupPrefix, Incremental, b) in w.failedKeys
    requires NoUpper(clock.logStamp) && StartsWith(clock.logStamp + Retention.LogSuffix, clock.today)
    requires Uploads.LogKey(cfg.logPrefix, Retention.LogFileName("INCREMENTAL", clock.logStamp)) !in w.failedKeys
    requires w.logListing.Some?
    ensures var r := Main([prog, "INCREMENTAL"], cfg, clock, w);
      && r.Ran? && r.kind == Incremental && r.runDirFate == Kept
      && |r.uploads| == 2 && r.uploads[0].ok && !r.uploads[1].ok
      && r.logs.Some? && r.logs.value.uploaded && r.logs.value.cleanup.Some?
      && Retention.IsTodayIncremental(r.logName, clock.today)
      && r.logName in r.logs.value.cleanup.value.keep
      && forall d :: d in r.logs.value.cleanup.value.deletions ==> d.name != r.logName
  {
    NameIsUpper(Incremental);
    ParseAnyCase(prog, "INCREMENTAL", Incremental);
    var logName := Retention.LogFileName("INCREMENTAL", clock.logStamp);
    IncrementalRunBackup(cfg, clock, w, a, b, logName);
    TodayIncrementalLog(clock.logStamp, clock.today);
  }

  lemma TodayIncrementalLog(stamp: string, today: string)
    requires NoUpper(stamp) && StartsWith(stamp + Retention.LogSuffix, today)
    ensures Retention.IsTodayIncremental(Retention.LogFileName("INCREMENTAL", stamp), today)
  {
    assert AllUpper("INCREMENTAL");
    Retention.LogNameTodayIncremental("INCREMENTAL", stamp, today);
  }

  lemma IncrementalRunBackup(cfg: Config, clock: Clock, w: World, a: string, b: string, logName: string)
    requires w.scriptWriteError.None? && Succeeded(w.engine)
    requires w.runListing == FilesNamed([a, b])
    requires Uploads.ArtifactKey(cfg.backupPrefix, Incremental, a) !in w.failedKeys
    requires Uploads.ArtifactKey(cfg.backupPrefix, Incremental, b) in w.failedKeys
    requires Uploads.LogKey(cfg.logPrefix, logName) !in w.failedKeys
    requires w.logListing.Some?
    ensures var r := Backup(Incremental, logName, cfg, clock, w);
      && r.runDirFate == Kept
      && |r.uploads| == 2 && r.uploads[0].ok && !r.uploads[1].ok
      && r.logs.Some? && r.logs.value.uploaded && r.logs.value.cleanup.Some?
      && logName in r.logs.value.cleanup.value.keep
      && forall d :: d in r.logs.value.cleanup.value.deletions ==> d.name != logName
  {
    RegularFilesOfFiles([a, b]);
  }
}

=== FILE: backup_script.dfy ===
/** The RMAN script the backup composes for one run: a single RUN block
    that allocates a disk channel, backs up the database (full or level-1
    incremental), backs up and then expires archived logs, and releases the
    channel. Text only; writing it to disk is the engine step's business. */
module BackupScript {
  import opened Text

  const RunOpen: string := "RUN {"
  const AllocateChannel: string := "ALLOCATE CHANNEL d1 TYPE DISK;"
  const ReleaseChannel: string := "RELEASE CHANNEL d1;"
  const RunClose: string := "}"
  const ExitLine: string := "exit;"

  /** Command heads; the classifiers below recognise lines by them. */
  const FullHead: string := "BACKUP DATABASE "
  const IncrementalHead: string := "BACKUP INCREMENTAL LEVEL 1 DATABASE "
  const ArchivelogHead: string := "BACKUP ARCHIVELOG ALL "
  const DeleteHead: string := "DELETE NOPROMPT ARCHIVELOG "
  const DeleteArchivelogs: string := DeleteHead + "ALL COMPLETED BEFORE 'SYSDATE-1';"

  /** `BK_{kind}_{timestamp}`; the timestamp is `%m%d%H%M%S` of the moment
      the script is composed, passed in as text. */
  function Tag(kind: string, ts: string): string {
    "BK_" + kind + "_" + ts
  }

  /** The name RMAN gives a database piece when it expands `%U` to `u`. */
  function DbPieceName(kind: string, u: string): string {
    "db_backup_" + kind + "_" + u
  }

  /** `{output_dir}{os.sep}db_backup_{kind}_%U`. */
  function DbFormat(outputDir: string, kind: string): string {
    outputDir + [Sep] + DbPieceName(kind, "%U")
  }

  /** The database backup command: level-1 incremental exactly when the kind
      is spelled "INCREMENTAL", a full database backup for any other kind. */
  function DbBackupCommand(kind: string, outputDir: string, ts: string): string {
    DbHead(kind) + DbBackupOptions(kind, outputDir, ts)
  }

  function DbHead(kind: string): string {
    if kind == "INCREMENTAL" then IncrementalHead else FullHead
  }

  function DbBackupOptions(kind: string, outputDir: string, ts: string): string {
    "FORMAT '" + DbFormat(outputDir, kind) + "' TAG '" + Tag(kind, ts) + "';"
  }

  function ArchivelogBackupCommand(outputDir: string): string {
    ArchivelogHead + "FORMAT '" + outputDir + [Sep] + "archivelog_%U';"
  }

  /** The eight script lines, in the order RMAN runs them. */
  function ScriptLines(kind: string, outputDir: string, ts: string): seq<string> {
    [ RunOpen,
      AllocateChannel,
      DbBackupCommand(kind, outputDir, ts),
      ArchivelogBackupCommand(outputDir),
      DeleteArchivelogs,
      ReleaseChannel,
      RunClose,
      ExitLine ]
  }

  /** The text written to the script file: the lines joined by newlines. */
  function ScriptContent(kind: string, outputDir: string, ts: string): string {
    JoinLines(ScriptLines(kind, outputDir, ts))
  }

  /** `{TEMP_BACKUP_DIR}/rman_script_{kind}.rcv`. */
  function ScriptPath(tempDir: string, kind: string): string {
    PathJoin(tempDir, "rman_script_" + kind + ".rcv")
  }

  predicate IsDatabaseBackup(line: string) {
    StartsWith(line, FullHead) || StartsWith(line, IncrementalHead)
  }

  predicate IsArchivelogBackup(line: string) {
    StartsWith(line, ArchivelogHead)
  }

  predicate IsArchivelogDelete(line: string) {
    StartsWith(line, DeleteHead)
  }

  lemma DbCommandClass(kind: string, outputDir: string, ts: string)
    ensures IsDatabaseBackup(DbBackupCommand(kind, outputDir, ts))
    ensures !IsArchivelogBackup(DbBackupCommand(kind, outputDir, ts))
    ensures !IsArchivelogDelete(DbBackupCommand(kind, outputDir, ts))
    ensures DbBackupCommand(kind, outputDir, ts)[0] == 'B'
  {
    var head := DbHead(kind);
    var rest := DbBackupOptions(kind, outputDir, ts);
    var c := DbBackupCommand(kind, outputDir, ts);
    StartsWithConcat(head, rest);
    CharOfConcat(head, rest, 0);
    CharOfConcat(head, rest, 7);
    PrefixMismatch(c, ArchivelogHead, 7);
    PrefixMismatch(c, DeleteHead, 0);
  }

  lemma ArchivelogCommandClass(outputDir: string)
    ensures !IsDatabaseBackup(ArchivelogBackupCommand(outputDir))
    ensures IsArchivelogBackup(ArchivelogBackupCommand(outputDir))
    ensures !IsArchivelogDelete(ArchivelogBackupCommand(outputDir))
    ensures ArchivelogBackupCommand(outputDir)[0] == 'B'
  {
    var rest := "FORMAT '" + outputDir + [Sep] + "archivelog_%U';";
    var c := ArchivelogBackupCommand(outputDir);
    assert c == ArchivelogHead + rest;
    StartsWithConcat(ArchivelogHead, rest);
    CharOfConcat(ArchivelogHead, rest, 0);
    CharOfConcat(ArchivelogHead, rest, 7);
    PrefixMismatch(c, FullHead, 7);
    PrefixMismatch(c, IncrementalHead, 7);
    PrefixMismatch(c, DeleteHead, 0);
  }

  lemma FixedLinesClass()
    ensures forall l :: l in [RunOpen, AllocateChannel, ReleaseChannel, RunClose, ExitLine] ==>
      !IsDatabaseBackup(l) && !IsArchivelogBackup(l) && !IsArchivelogDelete(l)
    ensures IsArchivelogDelete(DeleteArchivelogs)
    ensures !IsDatabaseBackup(DeleteArchivelogs) && !IsArchivelogBackup(DeleteArchivelogs)
  {
    PrefixMismatch(AllocateChannel, FullHead, 0);
    PrefixMismatch(AllocateChannel, IncrementalHead, 0);
    PrefixMismatch(AllocateChannel, ArchivelogHead, 0);
    PrefixMismatch(AllocateChannel, DeleteHead, 0);
    PrefixMismatch(ReleaseChannel, FullHead, 0);
    PrefixMismatch(ReleaseChannel, IncrementalHead, 0);
    PrefixMismatch(ReleaseChannel, ArchivelogHead, 0);
    PrefixMismatch(ReleaseChannel, DeleteHead, 0);
    PrefixMismatch(DeleteArchivelogs, FullHead, 0);
    PrefixMismatch(DeleteArchivelogs, IncrementalHead, 0);
    PrefixMismatch(DeleteArchivelogs, ArchivelogHead, 0);
    StartsWithConcat(DeleteHead, "ALL COMPLETED BEFORE 'SYSDATE-1';");
  }

  /** The script is exactly eight lines: one database backup, one archived-log
      backup and one archived-log expiry, in that order, each exactly once,
      inside `RUN { ... }` and between the single channel allocation and the
      single release, followed by `exit;`. */
  lemma ScriptShape(kind: string, outputDir: string, ts: string)
    ensures var lines := ScriptLines(kind, outputDir, ts);
      && |lines| == 8
      && lines[0] == RunOpen && lines[6] == RunClose && lines[7] == ExitLine
      && (forall i :: 0 <= i < |lines| ==> (lines[i] == AllocateChannel <==> i == 1))
      && (forall i :: 0 <= i < |lines| ==> (IsDatabaseBackup(lines[i]) <==> i == 2))
      && (forall i :: 0 <= i < |lines| ==> (IsArchivelogBackup(lines[i]) <==> i == 3))
      && (forall i :: 0 <= i < |lines| ==> (IsArchivelogDelete(lines[i]) <==> i == 4))
      && (forall i :: 0 <= i < |lines| ==> (lines[i] == ReleaseChannel <==> i == 5))
  {
    var lines := ScriptLines(kind, outputDir, ts);
    DbCommandClass(kind, outputDir, ts);
    ArchivelogCommandClass(outputDir);
    FixedLinesClass();
    assert lines[2][0] != AllocateChannel[0] && lines[3][0] != AllocateChannel[0];
    assert lines[2][0] != ReleaseChannel[0] && lines[3][0] != ReleaseChannel[0];
    assert DeleteArchivelogs[0] != AllocateChannel[0] && DeleteArchivelogs[0] != ReleaseChannel[0];
  }

  /** The database command depends on the kind: level-1 incremental exactly
      for "INCREMENTAL", a full backup otherwise; both write pieces named
      `{output_dir}/db_backup_{kind}_%U` and carry the tag `BK_{kind}_{ts}`. */
  lemma DbCommandByKind(kind: string, outputDir: string, ts: string)
    ensures StartsWith(DbBackupCommand(kind, outputDir, ts), IncrementalHead) <==> kind == "INCREMENTAL"
    ensures StartsWith(DbBackupCommand(kind, outputDir, ts), FullHead) <==> kind != "INCREMENTAL"
    ensures Contains(DbBackupCommand(kind, outputDir, ts), "FORMAT '" + outputDir + [Sep] + "db_backup_" + kind + "_%U'")
    ensures Contains(DbBackupCommand(kind, outputDir, ts), "TAG 'BK_" + kind + "_" + ts + "'")
  {
    var head := DbHead(kind);
    var rest := DbBackupOptions(kind, outputDir, ts);
    var c := DbBackupCommand(kind, outputDir, ts);
    StartsWithConcat(head, rest);
    CharOfConcat(head, rest, 7);
    if kind == "INCREMENTAL" {
      PrefixMismatch(c, FullHead, 7);
    } else {
      PrefixMismatch(c, IncrementalHead, 7);
    }
    OptionsPieces(kind, outputDir, ts, head);
  }

  lemma OptionsPieces(kind: string, outputDir: string, ts: string, head: string)
    ensures Contains(head + DbBackupOptions(kind, outputDir, ts), "FORMAT '" + outputDir + [Sep] + "db_backup_" + kind + "_%U'")
    ensures Contains(head + DbBackupOptions(kind, outputDir, ts), "TAG 'BK_" + kind + "_" + ts + "'")
  {
    var fmt := "FORMAT '" + outputDir + [Sep] + "db_backup_" + kind + "_%U'";
    var tag := "TAG 'BK_" + kind + "_" + ts + "'";
    var c := head + DbBackupOptions(kind, outputDir, ts);
    assert c == head + fmt + (" " + tag + ";");
    ContainsMiddle(head, fmt, " " + tag + ";");
    assert c == (head + fmt + " ") + tag + ";";
    ContainsMiddle(head + fmt + " ", tag, ";");
  }

  /** With newline-free parameters, reading the script file back line by
      line gives exactly the eight composed lines. */
  lemma ScriptFileRoundTrip(kind: string, outputDir: string, ts: string)
    requires NoNewline(kind) && NoNewline(outputDir) && NoNewline(ts)
    ensures SplitLines(ScriptContent(kind, outputDir, ts)) == ScriptLines(kind, outputDir, ts)
  {
    ScriptLinesPlain(kind, outputDir, ts);
    SplitJoin(ScriptLines(kind, outputDir, ts));
  }

  /** No script line holds a newline when the parameters hold none. */
  lemma ScriptLinesPlain(kind: string, outputDir: string, ts: string)
    requires NoNewline(kind) && NoNewline(outputDir) && NoNewline(ts)
    ensures AllLinesPlain(ScriptLines(kind, outputDir, ts))
  {
    DbCommandPlain(kind, outputDir, ts);
    ArchivelogCommandPlain(outputDir);
    DeleteLinePlain();
  }

  lemma DeleteLinePlain()
    ensures NoNewline(DeleteArchivelogs)
  {
  }

  lemma DbCommandPlain(kind: string, outputDir: string, ts: string)
    requires NoNewline(kind) && NoNewline(outputDir) && NoNewline(ts)
    ensures NoNewline(DbBackupCommand(kind, outputDir, ts))
  {
    assert NoNewline(DbHead(kind));
    assert NoNewline(DbFormat(outputDir, kind));
    assert NoNewline(Tag(kind, ts));
  }

  lemma ArchivelogCommandPlain(outputDir: string)
    requires NoNewline(outputDir)
    ensures NoNewline(ArchivelogBackupCommand(outputDir))
  {
  }
}

=== FILE: engine.dfy ===
/** The external recovery-manager engine (`rman`) as both scripts call it:
    one command line pointing at a script file, and an abstract outcome in
    place of the real subprocess. */
module Engine {

  /** What `subprocess.run(command, capture_output=True, text=True,
      check=True)` ends in. */
  datatype EngineOutcome =
    | Exited(code: int, stdout: string, stderr: string)
      // the engine ran; `check=True` raises `CalledProcessError` unless code is 0
    | NotFound
      // `FileNotFoundError`: no `rman` executable on the PATH
    | Raised(detail: string)
      // any other exception raised inside the guarded block

  predicate Succeeded(o: EngineOutcome) {
    o.Exited? && o.code == 0
  }

  /** `rman TARGET <connect> NOCATALOG CMDFILE=<script>`. */
  function Command(connect: string, scriptPath: string): seq<string> {
    ["rman", "TARGET " + connect, "NOCATALOG", "CMDFILE=" + scriptPath]
  }

  /** What became of the temporary script file once the step returned. */
  datatype ScriptFate =
    | NotWritten    // writing it failed, so nothing was cleaned up
    | Removed       // written, then removed in the `finally` block
    | Left          // written, but the removal failed
}

=== FILE: kinds.dfy ===
/** The two operation kinds and the command-line check both scripts apply
    to `sys.argv` before doing anything else. */
module Kinds {
  import opened Text
  import opened Options

  datatype Kind = Full | Incremental

  /** The upper-case spelling used in log names, tags and S3 folders. */
  function Name(k: Kind): string {
    match k
    case Full => "FULL"
    case Incremental => "INCREMENTAL"
  }

  /** `argv[1].upper()` when it names a kind; `None` for a missing or
      unrecognised argument (the backup script then logs under the name
      "UNKNOWN" and exits with status 1; the restore script prints the usage
      line and exits with status 1). `argv[0]` is the program name. */
  function ParseKind(argv: seq<string>): (r: Option<Kind>)
    ensures r.Some? <==> |argv| > 1 && (Upper(argv[1]) == Name(Full) || Upper(argv[1]) == Name(Incremental))
    ensures r.Some? ==> Upper(argv[1]) == Name(r.value)
  {
    if |argv| <= 1 then None
    else if Upper(argv[1]) == "FULL" then Some(Full)
    else if Upper(argv[1]) == "INCREMENTAL" then Some(Incremental)
    else None
  }

  /** The kind names are told apart by their spelling. */
  lemma NameInjective(a: Kind, b: Kind)
    ensures Name(a) == Name(b) <==> a == b
  {
    assert Name(Full)[0] != Name(Incremental)[0];
  }

  /** Upper-casing a kind name leaves it unchanged. */
  lemma NameIsUpper(k: Kind)
    ensures Upper(Name(k)) == Name(k)
  {
  }

  /** The lower-case spellings, as used for S3 folders, and back. */
  lemma LowerNames()
    ensures Lower(Name(Full)) == "full"
    ensures Lower(Name(Incremental)) == "incremental"
    ensures Upper("full") == Name(Full)
    ensures Upper("incremental") == Name(Incremental)
  {
    LowerFull();
    LowerIncremental();
    UpperFull();
    UpperIncremental();
  }

  lemma LowerFull() ensures Lower("FULL") == "full" {
    LowerOfChars("FULL", "full");
  }

  lemma UpperFull() ensures Upper("full") == "FULL" {
    UpperOfChars("full", "FULL");
  }

  lemma LowerIncremental() ensures Lower("INCREMENTAL") == "incremental" {
    LowerOfChars("INCREMENTAL", "incremental");
  }

  lemma UpperIncremental() ensures Upper("incremental") == "INCREMENTAL" {
    UpperOfChars("incremental", "INCREMENTAL");
  }

  /** The argument is case-insensitive: any spelling whose upper-case form is
      a kind name selects that kind, the lower-case name among them. */
  lemma ParseAnyCase(prog: string, arg: string, k: Kind)
    requires Upper(arg) == Name(k)
    ensures ParseKind([prog, arg]) == Some(k)
  {
    var r := ParseKind([prog, arg]);
    NameInjective(r.value, k);
  }

  lemma ParseLowerName(prog: string, k: Kind)
    ensures ParseKind([prog, Lower(Name(k))]) == Some(k)
  {
    LowerNames();
    ParseAnyCase(prog, Lower(Name(k)), k);
  }
}

=== FILE: listing.dfy ===
/** Directory listings as the two scripts see them: `os.listdir` order is
    taken as given, and every entry is either a regular file or a
    sub-directory with the names it holds. */
module Listing {
  import opened Options

  datatype Entry =
    | File(name: string)
    | Dir(name: string, children: seq<string>)

  predicate IsFileEntry(e: Entry) {
    e.File?
  }

  predicate IsDirEntry(e: Entry) {
    e.Dir?
  }

  /** `[f for f in os.listdir(d) if os.path.isfile(os.path.join(d, f))]`:
      the names of the regular-file entries, one per entry, in listing
      order. */
  function RegularFiles(es: seq<Entry>): (r: seq<string>)
    ensures |r| <= |es|
    ensures forall n :: n in r <==> File(n) in es
    ensures |r| == |Filter(IsFileEntry, es)|
    ensures forall i :: 0 <= i < |r| ==> r[i] == Filter(IsFileEntry, es)[i].name
  {
    if |es| == 0 then []
    else
      var rest := RegularFiles(es[1..]);
      var kept := Filter(IsFileEntry, es[1..]);
      if es[0].File? then
        var r := [es[0].name] + rest;
        assert forall n :: n in r <==> File(n) in es by {
          assert es == [es[0]] + es[1..];
        }
        assert forall i :: 0 <= i < |r| ==> r[i] == Filter(IsFileEntry, es)[i].name by {
          var all := Filter(IsFileEntry, es);
          assert all == [es[0]] + kept;
          forall i | 0 < i < |r| ensures r[i] == all[i].name {
            assert r[i] == rest[i - 1] && all[i] == kept[i - 1];
          }
        }
        r
      else
        assert forall n :: n in rest <==> File(n) in es by {
          assert es == [es[0]] + es[1..];
        }
        assert Filter(IsFileEntry, es) == kept;
        rest
  }

  /** A listing of regular files alone yields their names, in listing order. */
  lemma {:induction false} RegularFilesOfFiles(names: seq<string>)
    ensures RegularFiles(FilesNamed(names)) == names
  {
    if |names| > 0 {
      assert FilesNamed(names)[1..] == FilesNamed(names[1..]);
      RegularFilesOfFiles(names[1..]);
    }
  }

  /** A listing of regular files with the given names, in order. */
  function FilesNamed(names: seq<string>): (r: seq<Entry>)
    ensures |r| == |names|
    ensures forall i :: 0 <= i < |names| ==> r[i] == File(names[i])
  {
    if |names| == 0 then [] else [File(names[0])] + FilesNamed(names[1..])
  }

  /** `root` lists a sub-directory called `n`. */
  ghost predicate HasDir(es: seq<Entry>, n: string) {
    exists c :: Dir(n, c) in es
  }

  /** `[d for d in os.listdir(root) if os.path.isdir(os.path.join(root, d))]`:
      the names of the sub-directory entries, one per entry, in listing
      order. */
  function SubdirNames(es: seq<Entry>): (r: seq<string>)
    ensures |r| <= |es|
    ensures forall n :: n in r <==> HasDir(es, n)
    ensures |r| == |Filter(IsDirEntry, es)|
    ensures forall i :: 0 <= i < |r| ==> r[i] == Filter(IsDirEntry, es)[i].name
  {
    if |es| == 0 then []
    else
      var rest := SubdirNames(es[1..]);
      assert es == [es[0]] + es[1..];
      assert forall n :: HasDir(es, n) <==> (es[0].Dir? && es[0].name == n) || HasDir(es[1..], n) by {
        forall n | HasDir(es, n) ensures (es[0].Dir? && es[0].name == n) || HasDir(es[1..], n) {
          var c :| Dir(n, c) in es;
        }
        forall n | es[0].Dir? && es[0].name == n ensures HasDir(es, n) {
          assert Dir(n, es[0].children) in es;
        }
        forall n | HasDir(es[1..], n) ensures HasDir(es, n) {
          var c :| Dir(n, c) in es[1..];
        }
      }
      if es[0].Dir? then [es[0].name] + rest else rest
  }
}

=== FILE: marker_case.dfy ===
/** How the restore's marker test meets the names the backup gives its
    pieces. The backup asks RMAN for `db_backup_{KIND}_%U` and
    `archivelog_%U`, with the kind in upper case between lower-case text, and
    `%U` expanded to lower-case letters and digits. The restore looks for the
    upper-case markers `DB_BACKUP_FULL` and `DB_BACKUP_INCREMENTAL`. Taken
    case-sensitively, as written, no such name ever carries a marker; taken
    without regard to case, every database piece carries its kind's marker. */
module MarkerCase {
  import opened Options
  import opened Text
  import opened Kinds
  import opened Listing
  import opened Selection
  import BackupScript

  const ArchivelogPrefix: string := "archivelog_"

  /** A file name the backup can produce: a database piece of either kind or
      an archived-log piece, with a lower-case unique part `u`. */
  ghost predicate BackupPiece(f: string) {
    || (exists u :: NoUpper(u) && f == ArchivelogPrefix + u)
    || (exists k: Kind, u :: NoUpper(u) && f == BackupScript.DbPieceName(Name(k), u))
  }

  /** Every file of every run directory is a piece the backup wrote. */
  ghost predicate OnlyBackupPieces(es: seq<Entry>) {
    forall e, f :: e in es && e.Dir? && f in e.children ==> BackupPiece(f)
  }

  lemma MarkerShape(k: Kind)
    ensures |MarkerOf(k)| > 3
    ensures IsUpperLetter(MarkerOf(k)[1]) && !IsUpperLetter(MarkerOf(k)[2]) && IsUpperLetter(MarkerOf(k)[3])
  {
  }

  /** As written: a database piece, upper-case kind included, never contains
      either marker, because the marker's `B_B` straddles the lower-case
      `backup_` of the name. */
  lemma DbPieceLacksMarker(kind: string, u: string, m: Kind)
    requires AllUpper(kind) && NoUpper(u)
    ensures !Contains(BackupScript.DbPieceName(kind, u), MarkerOf(m))
  {
    var a := "db_backup_";
    assert NoUpper(a);
    assert NoUpper("_" + u);
    assert BackupScript.DbPieceName(kind, u) == a + kind + ("_" + u);
    MarkerShape(m);
    UpperGapAbsent(a, kind, "_" + u, MarkerOf(m), 1);
  }

  /** An archived-log piece has no upper-case letter at all. */
  lemma ArchivelogPieceLacksMarker(u: string, m: Kind)
    requires NoUpper(u)
    ensures !Contains(ArchivelogPrefix + u, MarkerOf(m))
  {
    assert NoUpper(ArchivelogPrefix + u);
    assert ArchivelogPrefix + u == (ArchivelogPrefix + u) + "" + "";
    MarkerShape(m);
    UpperGapAbsent(ArchivelogPrefix + u, "", "", MarkerOf(m), 1);
  }

  lemma PieceLacksMarker(f: string, m: Kind)
    requires BackupPiece(f)
    ensures !NameHasMarker(CaseSensitive, f, MarkerOf(m))
  {
    if exists u :: NoUpper(u) && f == ArchivelogPrefix + u {
      var u :| NoUpper(u) && f == ArchivelogPrefix + u;
      ArchivelogPieceLacksMarker(u, m);
    } else {
      var k: Kind, u :| NoUpper(u) && f == BackupScript.DbPieceName(Name(k), u);
      assert AllUpper(Name(k));
      DbPieceLacksMarker(Name(k), u, m);
    }
  }

  /** As written, no run of a source tree the backup produced counts as
      marked, for either marker. */
  lemma NoRunMarkedAsWritten(es: seq<Entry>, m: Kind)
    requires OnlyBackupPieces(es)
    ensures !SomeMarked(es, CaseSensitive, MarkerOf(m))
  {
    forall n | HasDir(es, n) ensures !RunMarked(es, CaseSensitive, MarkerOf(m), n) {
      var files := ChildrenOf(es, n);
      forall i | 0 <= i < |files| ensures !NameHasMarker(CaseSensitive, files[i], MarkerOf(m)) {
        ChildrenOfListed(es, n, files[i]);
        var c :| Dir(n, c) in es && files[i] in c;
        PieceLacksMarker(files[i], m);
      }
    }
  }

  /** The selection as written finds nothing in such a tree, whatever the
      requested kind: the restore stops with "no FULL backup found". */
  lemma AsWrittenFindsNothing(root: string, es: seq<Entry>, kind: Kind)
    requires OnlyBackupPieces(es)
    ensures FindLatestBackupSets(root, Some(es), kind, CaseSensitive) == BackupSets(None, None)
  {
    NoRunMarkedAsWritten(es, Full);
  }

  lemma UpperPiecePrefix()
    ensures Upper("db_backup_") == "DB_BACKUP_"
  {
    UpperOfChars("db_backup_", "DB_BACKUP_");
  }

  /** Corrected: compared without regard to case, a kind's database piece
      carries that kind's marker, whatever RMAN puts in place of `%U`. */
  lemma IgnoreCaseFindsPiece(k: Kind, u: string)
    ensures NameHasMarker(IgnoreCase, BackupScript.DbPieceName(Name(k), u), MarkerOf(k))
  {
    assert BackupScript.DbPieceName(Name(k), u) == "db_backup_" + Name(k) + ("_" + u);
    UpperPiecePrefix();
    NameIsUpper(k);
    MarkerInUpper("db_backup_", "DB_BACKUP_", Name(k), "_" + u);
  }

  /** Upper-casing `p + n + t`, where `p` upper-cases to `P` and `n` is
      already upper case, yields a string containing `P + n`. */
  lemma MarkerInUpper(p: string, bigP: string, n: string, t: string)
    requires Upper(p) == bigP && Upper(n) == n
    ensures Contains(Upper(p + n + t), bigP + n)
  {
    var m := bigP + n;
    var r := Upper(p + n + t);
    UpperConcat(p + n, t);
    UpperConcat(p, n);
    assert r == m + Upper(t);
    assert r[0..|m|] == m;
    OccursContains(r, m, 0);
  }

  /** Corrected: a run directory holding a database piece of kind `k` is a
      run marked for `k`. */
  lemma IgnoreCaseMarksRun(es: seq<Entry>, run: string, c: seq<string>, k: Kind, u: string)
    requires UniqueNames(es) && Dir(run, c) in es
    requires BackupScript.DbPieceName(Name(k), u) in c
    ensures HasDir(es, run) && RunMarked(es, IgnoreCase, MarkerOf(k), run)
    ensures SomeMarked(es, IgnoreCase, MarkerOf(k))
  {
    ChildrenOfUnique(es, run, c);
    var j :| 0 <= j < |c| && c[j] == BackupScript.DbPieceName(Name(k), u);
    IgnoreCaseFindsPiece(k, u);
  }

  /** Corrected: once any run holds a full database piece, the selection
      returns a FULL path; for an INCREMENTAL request with any run holding
      an incremental piece, it returns an INCREMENTAL path too. */
  lemma CorrectedFindsBackup(root: string, es: seq<Entry>, run: string, c: seq<string>, u: string, kind: Kind)
    requires root != "" && UniqueNames(es) && Dir(run, c) in es
    requires BackupScript.DbPieceName(Name(Full), u) in c
    ensures FindLatestBackupSets(root, Some(es), kind, IgnoreCase).full.Some?
  {
    IgnoreCaseMarksRun(es, run, c, Full, u);
  }

  lemma CorrectedFindsIncremental(root: string, es: seq<Entry>, run: string, c: seq<string>, u: string,
                                  run2: string, c2: seq<string>, u2: string)
    requires root != "" && UniqueNames(es) && Dir(run, c) in es && Dir(run2, c2) in es
    requires BackupScript.DbPieceName(Name(Full), u) in c
    requires BackupScript.DbPieceName(Name(Incremental), u2) in c2
    ensures FindLatestBackupSets(root, Some(es), Incremental, IgnoreCase).incremental.Some?
  {
    IgnoreCaseMarksRun(es, run, c, Full, u);
    IgnoreCaseMarksRun(es, run2, c2, Incremental, u2);
  }

  /** One full backup run, as uploaded and brought back: its database piece
      and its archived-log piece. */
  function OneRun(run: string, u: string, v: string): seq<Entry> {
    [Dir(run, [BackupScript.DbPieceName(Name(Full), u), ArchivelogPrefix + v])]
  }

  /** The counterexample: for the tree of one full backup run, the selection
      as written returns nothing, while the corrected one returns that run. */
  lemma OneRunCounterexample(root: string, run: string, u: string, v: string)
    requires root != "" && NoUpper(u) && NoUpper(v)
    ensures FindLatestBackupSets(root, Some(OneRun(run, u, v)), Full, CaseSensitive) == BackupSets(None, None)
    ensures FindLatestBackupSets(root, Some(OneRun(run, u, v)), Full, IgnoreCase)
      == BackupSets(Some(PathJoin(root, run)), None)
  {
    var es := OneRun(run, u, v);
    var c := es[0].children;
    assert OnlyBackupPieces(es) by {
      forall e, f | e in es && e.Dir? && f in e.children ensures BackupPiece(f) {
        if f == c[0] {
          assert NoUpper(u) && f == BackupScript.DbPieceName(Name(Full), u);
        } else {
          assert NoUpper(v) && f == ArchivelogPrefix + v;
        }
      }
    }
    AsWrittenFindsNothing(root, es, Full);
    IgnoreCaseMarksRun(es, run, c, Full, u);
    var r := FindLatestBackupSets(root, Some(es), Full, IgnoreCase);
    var n :| IsNewestMarked(es, IgnoreCase, FullMarker, n) && r.full.value == PathJoin(root, n);
    var cn :| Dir(n, cn) in es;
  }
}

=== FILE: options.dfy ===
/** The optional value the scripts express with Python's `None`, and a
    generic order-preserving filter for the list comprehensions they use. */
module Options {

  datatype Option<+T> = None | Some(value: T)

  /** `[x for x in s if p(x)]`: keeps, in their original order, the elements
      that satisfy `p`. */
  function Filter<T(!new)>(p: T -> bool, s: seq<T>): (r: seq<T>)
    ensures |r| <= |s|
    ensures forall x :: x in r <==> x in s && p(x)
  {
    if |s| == 0 then []
    else if p(s[0]) then [s[0]] + Filter(p, s[1..])
    else Filter(p, s[1..])
  }

  /** Applies `f` to every element, keeping order (a list comprehension
      without a condition). */
  function MapSeq<T, U>(f: T -> U, s: seq<T>): (r: seq<U>)
    ensures |r| == |s|
    ensures forall i :: 0 <= i < |s| ==> r[i] == f(s[i])
  {
    if |s| == 0 then [] else [f(s[0])] + MapSeq(f, s[1..])
  }

  /** Filtering by a predicate every element satisfies changes nothing. */
  lemma {:induction false} FilterKeepsAll<T(!new)>(p: T -> bool, s: seq<T>)
    requires forall x :: x in s ==> p(x)
    ensures Filter(p, s) == s
  {
    if |s| > 0 {
      assert s[0] in s;
      FilterKeepsAll(p, s[1..]);
      assert s == [s[0]] + s[1..];
    }
  }

  /** Filtering by a predicate no element satisfies leaves nothing. */
  lemma {:induction false} FilterKeepsNone<T(!new)>(p: T -> bool, s: seq<T>)
    requires forall x :: x in s ==> !p(x)
    ensures Filter(p, s) == []
  {
    if |s| > 0 {
      assert s[0] in s;
      FilterKeepsNone(p, s[1..]);
    }
  }
}

=== FILE: ordering.dfy ===
/** Python's ordering of `str` values (code point by code point, a proper
    prefix first) and `sorted(names, reverse=True)` over it. */
module Ordering {

  /** `a <= b` on Python strings. */
  predicate LexLe(a: string, b: string)
    decreases |a|
  {
    |a| == 0 || (|b| > 0 && (a[0] < b[0] || (a[0] == b[0] && LexLe(a[1..], b[1..]))))
  }

  lemma {:induction false} LexLeReflexive(a: string)
    ensures LexLe(a, a)
    decreases |a|
  {
    if |a| > 0 {
      LexLeReflexive(a[1..]);
    }
  }

  lemma {:induction false} LexLeTotal(a: string, b: string)
    ensures LexLe(a, b) || LexLe(b, a)
    decreases |a|
  {
    if |a| > 0 && |b| > 0 && a[0] == b[0] {
      LexLeTotal(a[1..], b[1..]);
    }
  }

  lemma {:induction false} LexLeAntisymmetric(a: string, b: string)
    ensures LexLe(a, b) && LexLe(b, a) ==> a == b
    decreases |a|
  {
    if |a| > 0 && |b| > 0 && a[0] == b[0] {
      LexLeAntisymmetric(a[1..], b[1..]);
      if LexLe(a, b) && LexLe(b, a) {
        assert a == [a[0]] + a[1..];
        assert b == [b[0]] + b[1..];
      }
    }
  }

  lemma {:induction false} LexLeTransitive(a: string, b: string, c: string)
    ensures LexLe(a, b) && LexLe(b, c) ==> LexLe(a, c)
    decreases |a|
  {
    if |a| > 0 && |b| > 0 && |c| > 0 {
      LexLeTransitive(a[1..], b[1..], c[1..]);
    }
  }

  /** Non-increasing order: every element is at least every later one. */
  predicate SortedDesc(s: seq<string>) {
    forall i, j :: 0 <= i < j < |s| ==> LexLe(s[j], s[i])
  }

  /** Places `x` before the first element that is not greater than it. */
  function Insert(x: string, s: seq<string>): (r: seq<string>)
    requires SortedDesc(s)
    ensures multiset(r) == multiset(s) + multiset{x}
    ensures SortedDesc(r)
    decreases |s|
  {
    if |s| == 0 then [x]
    else if LexLe(s[0], x) then
      LexLeTransitive(s[0], x, x);
      assert forall j :: 0 < j < |s| ==> LexLe(s[j], s[0]);
      InsertFront(x, s);
      [x] + s
    else
      var rest := Insert(x, s[1..]);
      assert s == [s[0]] + s[1..];
      LexLeTotal(s[0], x);
      forall y | y in multiset(rest) ensures LexLe(y, s[0]) {
        assert y == x || y in multiset(s[1..]);
        if y != x {
          var j :| 1 <= j < |s| && s[j] == y;
        }
      }
      PrependMax(s[0], rest);
      [s[0]] + rest
  }

  lemma InsertFront(x: string, s: seq<string>)
    requires SortedDesc(s)
    requires |s| > 0 && LexLe(s[0], x)
    ensures SortedDesc([x] + s)
  {
    forall i, j | 0 <= i < j < |[x] + s| ensures LexLe(([x] + s)[j], ([x] + s)[i]) {
      if i == 0 {
        LexLeTransitive(s[j - 1], s[0], x);
        if j - 1 == 0 {
          assert LexLe(s[0], x);
        }
      }
    }
  }

  lemma PrependMax(m: string, s: seq<string>)
    requires SortedDesc(s)
    requires forall y | y in multiset(s) :: LexLe(y, m)
    ensures SortedDesc([m] + s)
  {
    forall i, j | 0 <= i < j < |[m] + s| ensures LexLe(([m] + s)[j], ([m] + s)[i]) {
      if i == 0 {
        assert s[j - 1] in multiset(s);
      }
    }
  }

  /** `sorted(names, reverse=True)`, written as an insertion sort. */
  function SortDesc(s: seq<string>): (r: seq<string>)
    ensures multiset(r) == multiset(s)
    ensures SortedDesc(r)
    decreases |s|
  {
    if |s| == 0 then []
    else
      assert s == [s[0]] + s[1..];
      Insert(s[0], SortDesc(s[1..]))
  }

  /** The descending order of a multiset of strings is unique, so the
      insertion sort yields exactly what any other correct sort (Python's
      included) yields. */
  lemma {:induction false} SortedDescUnique(a: seq<string>, b: seq<string>)
    requires SortedDesc(a) && SortedDesc(b)
    requires multiset(a) == multiset(b)
    ensures a == b
    decreases |a|
  {
    assert |a| == |multiset(a)| == |multiset(b)| == |b|;
    if |a| > 0 {
      SortedDescSameHead(a, b);
      SameHeadTails(a, b);
      SortedDescUnique(a[1..], b[1..]);
      assert a == [a[0]] + a[1..] && b == [b[0]] + b[1..];
    }
  }

  /** Two descending orders of one multiset start with the same element. */
  lemma SortedDescSameHead(a: seq<string>, b: seq<string>)
    requires SortedDesc(a) && SortedDesc(b)
    requires multiset(a) == multiset(b) && |a| > 0 && |b| > 0
    ensures a[0] == b[0]
  {
    assert a[0] in multiset(b);
    assert b[0] in multiset(a);
    var i :| 0 <= i < |b| && b[i] == a[0];
    var j :| 0 <= j < |a| && a[j] == b[0];
    assert LexLe(b[i], b[0]) by {
      if i > 0 {} else { LexLeReflexive(b[0]); }
    }
    assert LexLe(a[j], a[0]) by {
      if j > 0 {} else { LexLeReflexive(a[0]); }
    }
    LexLeAntisymmetric(a[0], b[0]);
  }

  /** Removing an equal head from two sequences of one multiset leaves
      tails of one multiset. */
  lemma SameHeadTails(a: seq<string>, b: seq<string>)
    requires multiset(a) == multiset(b) && |a| > 0 && |b| > 0 && a[0] == b[0]
    ensures multiset(a[1..]) == multiset(b[1..])
  {
    assert a == [a[0]] + a[1..];
    assert b == [b[0]] + b[1..];
    assert multiset(a) == multiset{a[0]} + multiset(a[1..]);
    assert multiset(b) == multiset{b[0]} + multiset(b[1..]);
    assert multiset(a[1..]) == multiset(a) - multiset{a[0]};
    assert multiset(b[1..]) == multiset(b) - multiset{b[0]};
  }
}

=== FILE: restore.dfy ===
/** The restore side: the RMAN restore script, the engine step that runs it,
    and `main`, which picks the backup generation, aborts without a FULL
    run, downgrades an INCREMENTAL request that finds no incremental run,
    and runs the restore. */
module Restore {
  import opened Options
  import opened Text
  import opened Kinds
  import opened Engine
  import opened Listing
  import opened Selection
  import MarkerCase

  const ScriptName: string := "rman_restore_script.rcv"
  const SuccessMessage: string := "Restauração concluída com sucesso."
  const EngineErrorPrefix: string := "Falha no RMAN: "
  const CatalogPrefix: string := "CATALOG START WITH '"
  const CatalogSuffix: string := "';"

  /** The fixed lines before and after the CATALOG lines. */
  const Opening: seq<string> := ["RUN {", "SHUTDOWN IMMEDIATE;", "STARTUP MOUNT;"]
  const Closing: seq<string> := ["RESTORE DATABASE;", "RECOVER DATABASE;", "ALTER DATABASE OPEN;", "}"]

  /** `CATALOG START WITH '{path}';`. */
  function CatalogLine(path: string): string {
    CatalogPrefix + path + CatalogSuffix
  }

  /** Reads the path back from a CATALOG line; None for any other line. */
  function CatalogPath(line: string): Option<string> {
    if |line| >= |CatalogPrefix| + |CatalogSuffix| && StartsWith(line, CatalogPrefix) && EndsWith(line, CatalogSuffix)
    then Some(line[|CatalogPrefix|..|line| - |CatalogSuffix|])
    else None
  }

  /** The paths a script catalogs, in script order. */
  function CatalogedPaths(lines: seq<string>): seq<string> {
    if |lines| == 0 then []
    else
      match CatalogPath(lines[0])
      case Some(p) => [p] + CatalogedPaths(lines[1..])
      case None => CatalogedPaths(lines[1..])
  }

  /** The paths handed to the restore step: the FULL run, then the
      INCREMENTAL run when one is given and not empty. */
  function Sources(full: string, incr: Option<string>): seq<string> {
    if Truthy(incr) then [full, incr.value] else [full]
  }

  /** `rman_script_lines` of `run_rman_restore(full, incremental)`. */
  function RestoreScriptLines(full: string, incr: Option<string>): seq<string> {
    Opening + MapSeq(CatalogLine, Sources(full, incr)) + Closing
  }

  lemma CatalogLineRoundTrip(p: string)
    ensures CatalogPath(CatalogLine(p)) == Some(p)
  {
    var line := CatalogLine(p);
    StartsWithConcat(CatalogPrefix, p + CatalogSuffix);
    assert line == CatalogPrefix + (p + CatalogSuffix);
    assert line[|line| - |CatalogSuffix|..] == CatalogSuffix;
    assert line[|CatalogPrefix|..|line| - |CatalogSuffix|] == p;
  }

  lemma FixedLinesNotCatalog()
    ensures forall i :: 0 <= i < |Opening| ==> CatalogPath(Opening[i]).None?
    ensures forall i :: 0 <= i < |Closing| ==> CatalogPath(Closing[i]).None?
  {
    assert CatalogPath(Opening[0]).None?;
    assert CatalogPath(Opening[1]).None?;
    assert CatalogPath(Opening[2]).None?;
    assert CatalogPath(Closing[0]).None?;
    assert CatalogPath(Closing[1]).None?;
    PrefixMismatch(Closing[2], CatalogPrefix, 0);
    assert CatalogPath(Closing[3]).None?;
  }

  lemma {:induction false} CatalogedPathsConcat(a: seq<string>, b: seq<string>)
    ensures CatalogedPaths(a + b) == CatalogedPaths(a) + CatalogedPaths(b)
  {
    if |a| == 0 {
      assert a + b == b;
    } else {
      assert (a + b)[0] == a[0];
      assert (a + b)[1..] == a[1..] + b;
      CatalogedPathsConcat(a[1..], b);
    }
  }

  lemma {:induction false} NoCatalogs(lines: seq<string>)
    requires forall i :: 0 <= i < |lines| ==> CatalogPath(lines[i]).None?
    ensures CatalogedPaths(lines) == []
  {
    if |lines| > 0 {
      NoCatalogs(lines[1..]);
    }
  }

  lemma {:induction false} CatalogsOfLines(paths: seq<string>)
    ensures CatalogedPaths(MapSeq(CatalogLine, paths)) == paths
  {
    if |paths| > 0 {
      CatalogLineRoundTrip(paths[0]);
      assert MapSeq(CatalogLine, paths)[1..] == MapSeq(CatalogLine, paths[1..]);
      CatalogsOfLines(paths[1..]);
    }
  }

  /** The script catalogs exactly the FULL path, then the INCREMENTAL path
      when one is given, and nothing else. */
  lemma RestoreScriptCatalogs(full: string, incr: Option<string>)
    ensures CatalogedPaths(RestoreScriptLines(full, incr)) == Sources(full, incr)
  {
    var mid := MapSeq(CatalogLine, Sources(full, incr));
    FixedLinesNotCatalog();
    NoCatalogs(Opening);
    NoCatalogs(Closing);
    CatalogsOfLines(Sources(full, incr));
    CatalogedPathsConcat(Opening, mid);
    CatalogedPathsConcat(Opening + mid, Closing);
  }

  /** Eight lines without an incremental path and nine with one: the
      shutdown and mount come first, the catalog lines next, and the
      restore, recover and open last, inside `RUN { ... }`. */
  lemma RestoreScriptShape(full: string, incr: Option<string>)
    ensures var lines := RestoreScriptLines(full, incr);
      && |lines| == (if Truthy(incr) then 9 else 8)
      && lines[..3] == Opening
      && lines[3] == CatalogLine(full)
      && (Truthy(incr) ==> lines[4] == CatalogLine(incr.value))
      && lines[|lines| - 4..] == Closing
  {
    var lines := RestoreScriptLines(full, incr);
    var mid := MapSeq(CatalogLine, Sources(full, incr));
    assert lines[..3] == Opening;
    assert lines[|lines| - 4..] == Closing;
  }

  /** With newline-free paths, the script file read back line by line gives
      the composed lines. */
  lemma RestoreScriptFileRoundTrip(full: string, incr: Option<string>)
    requires NoNewline(full) && (incr.Some? ==> NoNewline(incr.value))
    ensures SplitLines(JoinLines(RestoreScriptLines(full, incr))) == RestoreScriptLines(full, incr)
  {
    var lines := RestoreScriptLines(full, incr);
    RestoreScriptShape(full, incr);
    assert NoNewline(CatalogLine(full));
    if Truthy(incr) {
      assert NoNewline(CatalogLine(incr.value));
    }
    assert forall i :: 0 <= i < |lines| ==> NoNewline(lines[i]) by {
      forall i | 0 <= i < |lines| ensures NoNewline(lines[i]) {
        if i < 3 {
          assert lines[i] == lines[..3][i];
        } else if i >= |lines| - 4 {
          assert lines[i] == lines[|lines| - 4..][i - (|lines| - 4)];
        }
      }
    }
    assert AllLinesPlain(lines);
    SplitJoin(lines);
  }

  /** An exception that escapes `run_rman_restore`. */
  datatype Escape =
    | ScriptWriteFailed(detail: string)   // opening or writing the script file
    | EngineNotFound                      // no `rman` on the PATH
    | EngineRaised(detail: string)        // any other exception from the run
    | ScriptRemoveFailed                  // `os.remove` in the `finally` block

  /** How the step ends: a returned `(success, message)` pair, or an
      exception the step does not catch. */
  datatype StepEnd = Returned(ok: bool, msg: string) | Escaped(error: Escape)

  datatype RestoreStep = RestoreStep(
    lines: seq<string>,
    end: StepEnd,
    command: Option<seq<string>>,  // the engine command, once the script is on disk
    script: ScriptFate)

  /** `run_rman_restore(full, incremental)` for the restore source `root`.
      The script is written before the guarded block, only a non-zero exit
      (`CalledProcessError`) is caught, and an exception from the removal in
      `finally` replaces whatever the block produced. */
  function RunRmanRestore(full: string, incr: Option<string>, root: string, connect: string,
                          writeError: Option<string>, engine: EngineOutcome, removeOk: bool): (r: RestoreStep)
    // the script written is the whole restore script for these runs
    ensures r.lines == RestoreScriptLines(full, incr)
    ensures CatalogedPaths(r.lines) == Sources(full, incr)
    ensures r.end.Returned? <==> writeError.None? && engine.Exited? && removeOk
    ensures r.end.Returned? ==> (r.end.ok <==> engine.code == 0)
    ensures r.end.Returned? && r.end.ok ==> r.end.msg == SuccessMessage
    ensures r.end.Returned? && !r.end.ok ==> r.end.msg == EngineErrorPrefix + engine.stderr
    ensures writeError.Some? ==> r.end == Escaped(ScriptWriteFailed(writeError.value)) && r.script == NotWritten && r.command.None?
    ensures writeError.None? ==> r.script != NotWritten && (r.script == Removed <==> removeOk)
    ensures writeError.None? ==> r.command == Some(Command(connect, PathJoin(root, ScriptName)))
  {
    var lines := RestoreScriptLines(full, incr);
    RestoreScriptCatalogs(full, incr);
    match writeError
    case Some(e) => RestoreStep(lines, Escaped(ScriptWriteFailed(e)), None, NotWritten)
    case None =>
      var cmd := Some(Command(connect, PathJoin(root, ScriptName)));
      if !removeOk then RestoreStep(lines, Escaped(ScriptRemoveFailed), cmd, Left)
      else
        var end := match engine
          case Exited(code, _, stderr) =>
            if code == 0 then Returned(true, SuccessMessage) else Returned(false, EngineErrorPrefix + stderr)
          case NotFound => Escaped(EngineNotFound)
          case Raised(d) => Escaped(EngineRaised(d));
        RestoreStep(lines, end, cmd, Removed)
  }

  /** Everything `main` meets outside the model: the listing of the restore
      source (None when it does not exist) and what happens to the script
      file and the engine. */
  datatype RestoreWorld = RestoreWorld(
    source: Option<seq<Entry>>,
    scriptWriteError: Option<string>,
    engine: EngineOutcome,
    scriptRemoveOk: bool)

  datatype RestoreReport =
    | Usage
      // missing or unknown kind: usage line, exit status 1
    | NoFullBackup(requested: Kind)
      // no FULL run: abort with exit status 1 before any script exists
    | Ran(requested: Kind, effective: Kind, sets: BackupSets, step: RestoreStep)

  /** The process exit status: 1 for the two aborts and for an escaping
      exception, 0 otherwise, a failed restore included. */
  function ExitStatus(r: RestoreReport): int {
    match r
    case Usage => 1
    case NoFullBackup(_) => 1
    case Ran(_, _, _, step) => if step.end.Escaped? then 1 else 0
  }

  /** `main()` of the restore script. `root` is RESTORE_SOURCE_DIR and `mode`
      the marker comparison (`CaseSensitive` as written). */
  function RestoreMain(argv: seq<string>, root: string, connect: string, mode: MatchMode, w: RestoreWorld): (r: RestoreReport)
    ensures r.Usage? <==> ParseKind(argv).None?
    ensures !r.Usage? ==> r.requested == ParseKind(argv).value
    ensures r.NoFullBackup? <==> ParseKind(argv).Some? && !Truthy(FindLatestBackupSets(root, w.source, r.requested, mode).full)
    ensures r.Ran? ==> r.sets == FindLatestBackupSets(root, w.source, r.requested, mode)
    ensures r.Ran? ==> RanConsistently(r)
  {
    match ParseKind(argv)
    case None => Usage
    case Some(k) =>
      var sets := FindLatestBackupSets(root, w.source, k, mode);
      if !Truthy(sets.full) then NoFullBackup(k)
      else RestoreWith(k, sets, root, connect, w)
  }

  /** What a restore that goes ahead promises: a FULL request is never turned
      into an INCREMENTAL restore; an INCREMENTAL request stays one exactly
      when an incremental run was found; and the script catalogs the FULL
      run, then the incremental run only for an INCREMENTAL restore. */
  predicate RanConsistently(r: RestoreReport)
    requires r.Ran?
  {
    && r.sets.full.Some?
    && (r.requested == Full ==> r.effective == Full)
    && (r.requested == Incremental ==> (r.effective == Incremental <==> Truthy(r.sets.incremental)))
    && (r.effective == Incremental ==> r.requested == Incremental && Truthy(r.sets.incremental))
    && r.step.lines
       == RestoreScriptLines(r.sets.full.value, if r.effective == Incremental then r.sets.incremental else None)
    && CatalogedPaths(r.step.lines)
       == [r.sets.full.value] + (if r.effective == Incremental then [r.sets.incremental.value] else [])
  }

  /** Lines 151-155 of `main`: the downgrade, then the restore step. */
  function RestoreWith(k: Kind, sets: BackupSets, root: string, connect: string, w: RestoreWorld): (r: RestoreReport)
    requires Truthy(sets.full)
    ensures r.Ran? && r.requested == k && r.sets == sets && RanConsistently(r)
  {
    var effective := if k == Incremental && !Truthy(sets.incremental) then Full else k;
    var incr := if effective == Incremental then sets.incremental else None;
    Ran(k, effective, sets, RunRmanRestore(sets.full.value, incr, root, connect, w.scriptWriteError, w.engine, w.scriptRemoveOk))
  }

  /** The restore aborts, before any script exists, exactly when no run of
      the restore source carries the FULL marker (or that directory is
      missing). */
  lemma AbortsIffNoFull(argv: seq<string>, root: string, connect: string, mode: MatchMode, w: RestoreWorld)
    requires ParseKind(argv).Some? && root != ""
    ensures RestoreMain(argv, root, connect, mode, w).NoFullBackup?
      <==> w.source.None? || !SomeMarked(w.source.value, mode, FullMarker)
  {
  }

  /** What is restored from is the newest FULL-marked run of the restore
      source. */
  lemma RestoresNewestFull(argv: seq<string>, root: string, connect: string, mode: MatchMode, w: RestoreWorld)
    ensures var r := RestoreMain(argv, root, connect, mode, w);
      r.Ran? ==> w.source.Some? && exists n :: IsNewestMarked(w.source.value, mode, FullMarker, n) && CatalogedPaths(r.step.lines)[0] == PathJoin(root, n)
  {
  }

  /** An INCREMENTAL request over a source with FULL runs but no incremental
      run is carried out as a FULL restore: one CATALOG line. */
  lemma DowngradeWithoutIncremental(argv: seq<string>, root: string, connect: string, mode: MatchMode, w: RestoreWorld)
    requires ParseKind(argv) == Some(Incremental) && root != ""
    requires w.source.Some? && SomeMarked(w.source.value, mode, FullMarker)
    requires !SomeMarked(w.source.value, mode, IncrementalMarker)
    ensures var r := RestoreMain(argv, root, connect, mode, w);
      r.Ran? && r.requested == Incremental && r.effective == Full
      && |CatalogedPaths(r.step.lines)| == 1
  {
  }

  /** A failed restore is logged and nothing more: with the script written
      and removed, a non-zero engine exit ends in exit status 0. */
  lemma EngineFailureExitsZero(argv: seq<string>, root: string, connect: string, mode: MatchMode, w: RestoreWorld)
    requires w.scriptWriteError.None? && w.scriptRemoveOk
    requires w.engine.Exited? && w.engine.code != 0
    ensures var r := RestoreMain(argv, root, connect, mode, w);
      r.Ran? ==> r.step.end == Returned(false, EngineErrorPrefix + w.engine.stderr) && ExitStatus(r) == 0
  {
  }

  /** Unlike the backup's engine step, the restore's lets a missing `rman`
      escape (exit status 1), after still removing the script. */
  lemma EngineMissingEscapes(argv: seq<string>, root: string, connect: string, mode: MatchMode, w: RestoreWorld)
    requires w.scriptWriteError.None? && w.scriptRemoveOk && w.engine == NotFound
    ensures var r := RestoreMain(argv, root, connect, mode, w);
      r.Ran? ==> r.step.end == Escaped(EngineNotFound) && r.step.script == Removed && ExitStatus(r) == 1
  {
  }

  /** Exit status 0 means the restore step returned, successfully or not. */
  lemma ExitZeroMeansReturned(argv: seq<string>, root: string, connect: string, mode: MatchMode, w: RestoreWorld)
    ensures var r := RestoreMain(argv, root, connect, mode, w);
      ExitStatus(r) == 0 <==> r.Ran? && w.scriptWriteError.None? && w.engine.Exited? && w.scriptRemoveOk
  {
  }

  /** End to end on a restore source holding one full backup run: as written the
      restore aborts for want of a FULL backup; with the corrected marker
      test it catalogs that run. */
  lemma OneRunRestore(argv: seq<string>, root: string, connect: string, run: string, u: string, v: string,
                      w: RestoreWorld)
    requires ParseKind(argv) == Some(Full) && root != "" && NoUpper(u) && NoUpper(v)
    requires w.source == Some(MarkerCase.OneRun(run, u, v))
    ensures RestoreMain(argv, root, connect, CaseSensitive, w) == NoFullBackup(Full)
    ensures var r := RestoreMain(argv, root, connect, IgnoreCase, w);
      r.Ran? && CatalogedPaths(r.step.lines) == [PathJoin(root, run)]
  {
    MarkerCase.OneRunCounterexample(root, run, u, v);
  }
}

=== FILE: retention.dfy ===
/** Local log retention (`upload_and_clean_logs`): upload the current run's
    log, then keep the newest FULL log, today's INCREMENTAL logs and the
    current log, and try to delete every other `backup_log_*.log` file. The
    log directory listing is given as `(name, ctime)` pairs in listing order;
    names are compared as basenames, which is the same as comparing the
    full paths `upload_and_clean_logs` builds, since every path is `LOG_DIR` joined with a
    name (`Text.PathJoinInjective`). */
module Retention {
  import opened Options
  import opened Text
  import Uploads

  datatype LogEntry = LogEntry(name: string, ctime: int)

  const LogPrefix: string := "backup_log_"
  const LogSuffix: string := ".log"
  const FullMarker: string := "_FULL_"
  const IncrementalMarker: string := "_INCREMENTAL_"

  /** The name a backup run gives its own log: `backup_log_{KIND}_{stamp}.log`,
      with KIND "FULL", "INCREMENTAL" or "UNKNOWN" and `stamp` the
      `%Y%m%d_%H%M%S` start time. */
  function LogFileName(kind: string, stamp: string): string {
    LogPrefix + kind + "_" + stamp + LogSuffix
  }

  /** The files the cleanup considers at all. */
  predicate IsBackupLog(name: string) {
    StartsWith(name, LogPrefix) && EndsWith(name, LogSuffix)
  }

  predicate IsFullLog(name: string) {
    Contains(name, FullMarker)
  }

  predicate IsTodayIncremental(name: string, today: string) {
    Contains(name, IncrementalMarker + today)
  }

  /** A run's log name splits into the lower-case prefix, the kind, and a
      tail free of upper-case letters when the stamp is. */
  lemma LogNameParts(kind: string, stamp: string)
    requires NoUpper(stamp)
    ensures LogFileName(kind, stamp) == LogPrefix + kind + ("_" + stamp + LogSuffix)
    ensures NoUpper(LogPrefix) && NoUpper("_" + stamp + LogSuffix)
    ensures LogPrefix[|LogPrefix| - 1] == '_'
  {
  }

  lemma LogNameIsBackup(kind: string, stamp: string)
    ensures IsBackupLog(LogFileName(kind, stamp))
  {
    var name := LogFileName(kind, stamp);
    var tail := kind + "_" + stamp;
    assert name == LogPrefix + tail + LogSuffix;
    StartsWithConcat(LogPrefix, tail + LogSuffix);
    assert name[|name| - |LogSuffix|..] == LogSuffix;
  }

  lemma LogNameFull(kind: string, stamp: string)
    requires |kind| > 0 && AllUpper(kind) && NoUpper(stamp)
    ensures IsFullLog(LogFileName(kind, stamp)) <==> kind == "FULL"
  {
    var b := "_" + stamp + LogSuffix;
    LogNameParts(kind, stamp);
    assert FullMarker == "_" + "FULL" + "_" + "";
    if IsFullLog(LogFileName(kind, stamp)) {
      assert AllUpper("FULL");
      WordMarker(LogPrefix, kind, b, "FULL", "");
    }
    if kind == "FULL" {
      StartsWithConcat("_", stamp + LogSuffix);
      WordMarkerPresent(LogPrefix, kind, b, "");
    }
  }

  lemma LogNameTodayIncremental(kind: string, stamp: string, today: string)
    requires |kind| > 0 && AllUpper(kind) && NoUpper(stamp)
    ensures IsTodayIncremental(LogFileName(kind, stamp), today)
      <==> kind == "INCREMENTAL" && StartsWith(stamp + LogSuffix, today)
  {
    var b := "_" + stamp + LogSuffix;
    LogNameParts(kind, stamp);
    assert IncrementalMarker + today == "_" + "INCREMENTAL" + "_" + today;
    assert b == "_" + (stamp + LogSuffix);
    if IsTodayIncremental(LogFileName(kind, stamp), today) {
      assert AllUpper("INCREMENTAL");
      WordMarker(LogPrefix, kind, b, "INCREMENTAL", today);
      assert (stamp + LogSuffix)[..|today|] == b[1..1 + |today|];
    }
    if kind == "INCREMENTAL" && StartsWith(stamp + LogSuffix, today) {
      assert b[..1 + |today|] == "_" + today;
      WordMarkerPresent(LogPrefix, kind, b, today);
    }
  }

  /** How the classification reads the names the backup itself writes:
      with an upper-case kind and a stamp free of upper-case letters (the
      `%Y%m%d_%H%M%S` digits), a run's log is a FULL log exactly when its
      kind is FULL, and one of today's INCREMENTAL logs exactly when its kind
      is INCREMENTAL and its stamp starts with today's date. */
  lemma LogNameClassification(kind: string, stamp: string, today: string)
    requires |kind| > 0 && AllUpper(kind) && NoUpper(stamp)
    ensures IsBackupLog(LogFileName(kind, stamp))
    ensures IsFullLog(LogFileName(kind, stamp)) <==> kind == "FULL"
    ensures IsTodayIncremental(LogFileName(kind, stamp), today)
      <==> kind == "INCREMENTAL" && StartsWith(stamp + LogSuffix, today)
  {
    LogNameIsBackup(kind, stamp);
    LogNameFull(kind, stamp);
    LogNameTodayIncremental(kind, stamp, today);
  }

  /** `i` is the first position of a largest ctime among the first `k` entries. */
  predicate FirstMaxUpTo(xs: seq<LogEntry>, k: int, i: int) {
    && 0 <= i < k <= |xs|
    && (forall j :: 0 <= j < k ==> xs[j].ctime <= xs[i].ctime)
    && (forall j :: 0 <= j < i ==> xs[j].ctime < xs[i].ctime)
  }

  predicate IsFirstMax(xs: seq<LogEntry>, i: int) {
    FirstMaxUpTo(xs, |xs|, i)
  }

  /** At most one position is the first of a largest ctime. */
  lemma FirstMaxUnique(xs: seq<LogEntry>, i: int, j: int)
    ensures IsFirstMax(xs, i) && IsFirstMax(xs, j) ==> i == j
  {
    if IsFirstMax(xs, i) && IsFirstMax(xs, j) {
      assert xs[i].ctime == xs[j].ctime;
    }
  }

  /** Python's `max` loop: the running best is replaced only by a strictly
      larger key. */
  function MaxFrom(xs: seq<LogEntry>, best: nat, k: nat): (r: nat)
    requires FirstMaxUpTo(xs, k, best)
    ensures IsFirstMax(xs, r)
    decreases |xs| - k
  {
    if k == |xs| then best
    else if xs[k].ctime > xs[best].ctime then MaxFrom(xs, k, k + 1)
    else MaxFrom(xs, best, k + 1)
  }

  /** `max(xs, key=os.path.getctime)`: the first entry of largest ctime. */
  function MaxByCtime(xs: seq<LogEntry>): (r: nat)
    requires |xs| > 0
    ensures IsFirstMax(xs, r)
  {
    MaxFrom(xs, 0, 1)
  }

  function FullLogs(logs: seq<LogEntry>): seq<LogEntry> {
    Filter((e: LogEntry) => IsFullLog(e.name), logs)
  }

  /** `latest_full_log`: none when no FULL log exists, otherwise the first
      FULL log, in listing order, of largest ctime. */
  function LatestFull(logs: seq<LogEntry>): (r: Option<LogEntry>)
    ensures r.None? <==> forall e :: e in logs ==> !IsFullLog(e.name)
    ensures r.Some? ==> exists i :: IsFirstMax(FullLogs(logs), i) && FullLogs(logs)[i] == r.value
  {
    var fulls := FullLogs(logs);
    if |fulls| == 0 then None
    else
      assert fulls[0] in fulls;
      Some(fulls[MaxByCtime(fulls)])
  }

  /** A FULL log created strictly after every other FULL log is the one
      kept as the newest FULL log. */
  lemma NewestFullIsLatest(logs: seq<LogEntry>, e: LogEntry)
    requires e in logs && IsFullLog(e.name)
    requires forall x :: x in logs && IsFullLog(x.name) && x != e ==> x.ctime < e.ctime
    ensures LatestFull(logs) == Some(e)
  {
    var fulls := FullLogs(logs);
    var v := LatestFull(logs).value;
    var i :| IsFirstMax(fulls, i) && fulls[i] == v;
    var j :| 0 <= j < |fulls| && fulls[j] == e;
    assert e.ctime <= v.ctime;
    assert fulls[i] in fulls;
  }

  /** `logs_to_keep`. */
  function KeepSet(logs: seq<LogEntry>, today: string, current: string): set<string> {
    (if LatestFull(logs).Some? then {LatestFull(logs).value.name} else {})
    + (set e | e in logs && IsTodayIncremental(e.name, today) :: e.name)
    + {current}
  }

  /** The retention policy stated on its own: a name is kept when it is the
      current log, the newest FULL log, or a log of today's INCREMENTAL runs. */
  ghost predicate NewestFull(logs: seq<LogEntry>, name: string) {
    exists i :: IsFirstMax(FullLogs(logs), i) && FullLogs(logs)[i].name == name
  }

  ghost predicate PolicyKeeps(logs: seq<LogEntry>, today: string, current: string, name: string) {
    || name == current
    || NewestFull(logs, name)
    || exists e :: e in logs && e.name == name && IsTodayIncremental(name, today)
  }

  /** The keep-set is exactly what the policy keeps. */
  lemma KeepSetIsPolicy(logs: seq<LogEntry>, today: string, current: string, name: string)
    ensures name in KeepSet(logs, today, current) <==> PolicyKeeps(logs, today, current, name)
  {
    var fulls := FullLogs(logs);
    if NewestFull(logs, name) {
      var i :| IsFirstMax(fulls, i) && fulls[i].name == name;
      var j :| IsFirstMax(fulls, j) && fulls[j] == LatestFull(logs).value;
      FirstMaxUnique(fulls, i, j);
    }
    if LatestFull(logs).Some? && name == LatestFull(logs).value.name {
      var j :| IsFirstMax(fulls, j) && fulls[j] == LatestFull(logs).value;
      assert NewestFull(logs, name);
    }
  }

  /** One attempted removal and whether `os.remove` succeeded. */
  datatype Deletion = Deletion(name: string, ok: bool)

  /** The names of the listed logs outside the keep-set. */
  function StaleNames(logs: seq<LogEntry>, keep: set<string>): set<string> {
    set e | e in logs && e.name !in keep :: e.name
  }

  function Attempted(ds: seq<Deletion>): set<string> {
    set d | d in ds :: d.name
  }

  function Removed(ds: seq<Deletion>): set<string> {
    set d | d in ds && d.ok :: d.name
  }

  /** The listed logs outside the keep-set, in listing order. */
  function StaleLogs(logs: seq<LogEntry>, keep: set<string>): seq<LogEntry> {
    if |logs| == 0 then []
    else (if logs[0].name in keep then [] else [logs[0]]) + StaleLogs(logs[1..], keep)
  }

  /** The removal loop: every log outside the keep-set is attempted, in
      listing order; a failure is logged and the loop goes on. */
  function DeleteStale(logs: seq<LogEntry>, keep: set<string>, failing: set<string>): (r: seq<Deletion>)
    ensures forall d :: d in r ==> d.name !in keep && (d.ok <==> d.name !in failing)
    ensures Attempted(r) == StaleNames(logs, keep)
    // one attempt per stale listed log, in listing order
    ensures |r| == |StaleLogs(logs, keep)|
    ensures forall i :: 0 <= i < |r| ==> r[i].name == StaleLogs(logs, keep)[i].name
  {
    if |logs| == 0 then []
    else
      var rest := DeleteStale(logs[1..], keep, failing);
      assert logs == [logs[0]] + logs[1..];
      assert StaleNames(logs, keep)
        == (if logs[0].name !in keep then {logs[0].name} else {}) + StaleNames(logs[1..], keep);
      if logs[0].name !in keep then
        var r := [Deletion(logs[0].name, logs[0].name !in failing)] + rest;
        assert Attempted(r) == {logs[0].name} + Attempted(rest);
        r
      else rest
  }

  function BackupLogs(listing: seq<LogEntry>): seq<LogEntry> {
    Filter((e: LogEntry) => IsBackupLog(e.name), listing)
  }

  datatype Cleanup = Cleanup(keep: set<string>, deletions: seq<Deletion>)

  /** The cleanup part of `upload_and_clean_logs`. `failing` holds the names
      whose removal raises `OSError`. */
  function CleanLogs(listing: seq<LogEntry>, today: string, current: string, failing: set<string>): (r: Cleanup)
    ensures current in r.keep
    ensures r.keep == KeepSet(BackupLogs(listing), today, current)
    ensures forall d :: d in r.deletions ==>
      IsBackupLog(d.name) && d.name !in r.keep && (d.ok <==> d.name !in failing)
    ensures Attempted(r.deletions) == StaleNames(BackupLogs(listing), r.keep)
  {
    var logs := BackupLogs(listing);
    var keep := KeepSet(logs, today, current);
    var dels := DeleteStale(logs, keep, failing);
    forall d | d in dels ensures IsBackupLog(d.name) {
      assert d.name in Attempted(dels);
      var e :| e in logs && e.name !in keep && e.name == d.name;
    }
    Cleanup(keep, dels)
  }

  function Listed(listing: seq<LogEntry>): set<string> {
    set e | e in listing :: e.name
  }

  /** The names still present in the log directory after the cleanup. */
  function Survivors(listing: seq<LogEntry>, r: Cleanup): set<string> {
    Listed(listing) - Removed(r.deletions)
  }

  /** A listed file survives the cleanup exactly when it is not a backup
      log, or the policy keeps it, or its removal failed. In particular the
      current log, the newest FULL log and today's INCREMENTAL logs survive,
      and files of any other name are never touched. */
  lemma WhatSurvives(listing: seq<LogEntry>, today: string, current: string, failing: set<string>, e: LogEntry)
    requires e in listing
    ensures var r := CleanLogs(listing, today, current, failing);
      (e.name in Survivors(listing, r)
       <==> !IsBackupLog(e.name) || PolicyKeeps(BackupLogs(listing), today, current, e.name) || e.name in failing)
  {
    var r := CleanLogs(listing, today, current, failing);
    var logs := BackupLogs(listing);
    KeepSetIsPolicy(logs, today, current, e.name);
    assert e.name in Listed(listing);
    if IsBackupLog(e.name) && e.name !in r.keep && e.name !in failing {
      assert e in logs;
      assert e.name in StaleNames(logs, r.keep);
      assert e.name in Attempted(r.deletions);
      var d :| d in r.deletions && d.name == e.name;
      assert e.name in Removed(r.deletions);
    }
    if e.name in Removed(r.deletions) {
      var d :| d in r.deletions && d.ok && d.name == e.name;
    }
  }

  /** What the log step did: the upload key and outcome, and the cleanup,
      absent when listing the directory or reading a ctime raised (the
      catch-all of `upload_and_clean_logs` around the cleanup). */
  datatype LogReport = LogReport(key: string, uploaded: bool, cleanup: Option<Cleanup>)

  /** `upload_and_clean_logs(current_log_path, kind)`. The cleanup runs
      whether or not the upload succeeded. */
  function UploadAndCleanLogs(logPrefix: string, current: string, failedKeys: set<string>,
                              listing: Option<seq<LogEntry>>, today: string, failing: set<string>): (r: LogReport)
    ensures r.key == Uploads.LogKey(logPrefix, current)
    ensures r.uploaded <==> r.key !in failedKeys
    ensures r.cleanup.Some? <==> listing.Some?
    ensures r.cleanup.Some? ==>
      current in r.cleanup.value.keep && forall d :: d in r.cleanup.value.deletions ==> d.name != current
  {
    var key := Uploads.LogKey(logPrefix, current);
    var cleanup := match listing
      case None => None
      case Some(l) => Some(CleanLogs(l, today, current, failing));
    LogReport(key, key !in failedKeys, cleanup)
  }

  /** The retention example: two FULL logs, the second newer; one
      INCREMENTAL log from today and one from an earlier day; and the current
      log, itself one of today's INCREMENTAL logs. The newer FULL log,
      today's INCREMENTAL log and the current log are kept, and the other
      two are deleted. The names are those a run writes, with
      `YYYYMMDD_HHMMSS` stamps and `today` the `YYYYMMDD` date. */
  lemma KeepScenario(s1: string, s2: string, si: string, sy: string, sc: string, today: string)
    requires Stamp(s1) && Stamp(s2) && Stamp(si) && Stamp(sy) && Stamp(sc) && |today| == 8
    requires si[..8] == today && sc[..8] == today && sy[..8] != today
    requires s1 != s2 && si != sc
    ensures
      var f1, f2 := LogFileName("FULL", s1), LogFileName("FULL", s2);
      var it, iy, cur := LogFileName("INCREMENTAL", si), LogFileName("INCREMENTAL", sy), LogFileName("INCREMENTAL", sc);
      var listing := [LogEntry(f1, 1), LogEntry(f2, 2), LogEntry(it, 3), LogEntry(iy, 0), LogEntry(cur, 4)];
      var r := CleanLogs(listing, today, cur, {});
      r.keep == {f2, it, cur} && Removed(r.deletions) == {f1, iy} && Survivors(listing, r) == {f2, it, cur}
  {
    var f1, f2 := LogFileName("FULL", s1), LogFileName("FULL", s2);
    var it, iy, cur := LogFileName("INCREMENTAL", si), LogFileName("INCREMENTAL", sy), LogFileName("INCREMENTAL", sc);
    ExampleName("FULL", s1, today);
    ExampleName("FULL", s2, today);
    ExampleName("INCREMENTAL", si, today);
    ExampleName("INCREMENTAL", sy, today);
    ExampleName("INCREMENTAL", sc, today);
    LogFileNameInjective("FULL", s1, s2);
    LogFileNameInjective("INCREMENTAL", si, sy);
    LogFileNameInjective("INCREMENTAL", si, sc);
    LogFileNameInjective("INCREMENTAL", sy, sc);
    ScenarioByClass(LogEntry(f1, 1), LogEntry(f2, 2), LogEntry(it, 3), LogEntry(iy, 0), LogEntry(cur, 4), today);
  }

  /** The example on entries described only by the classes of their names. */
  lemma ScenarioByClass(e1: LogEntry, e2: LogEntry, e3: LogEntry, e4: LogEntry, e5: LogEntry, today: string)
    requires forall e :: e in [e1, e2, e3, e4, e5] ==> IsBackupLog(e.name)
    requires IsFullLog(e1.name) && IsFullLog(e2.name) && !IsFullLog(e3.name) && !IsFullLog(e4.name) && !IsFullLog(e5.name)
    requires e1.ctime < e2.ctime
    requires !IsTodayIncremental(e1.name, today) && !IsTodayIncremental(e2.name, today) && !IsTodayIncremental(e4.name, today)
    requires IsTodayIncremental(e3.name, today) && IsTodayIncremental(e5.name, today)
    requires e1.name != e2.name && e3.name != e4.name && e3.name != e5.name && e4.name != e5.name
    ensures
      var r := CleanLogs([e1, e2, e3, e4, e5], today, e5.name, {});
      && r.keep == {e2.name, e3.name, e5.name}
      && Removed(r.deletions) == {e1.name, e4.name}
      && Survivors([e1, e2, e3, e4, e5], r) == {e2.name, e3.name, e5.name}
  {
    var listing := [e1, e2, e3, e4, e5];
    var keep := {e2.name, e3.name, e5.name};
    assert e1.name != e3.name && e1.name != e5.name && e4.name != e2.name;
    ExampleStale(e1, e2, e3, e4, e5, keep);
    ExampleListed(e1, e2, e3, e4, e5);
    ExampleKeep(e1, e2, e3, e4, e5, today);
    CleanupOfBackupLogs(listing, today, e5.name, keep, {e1.name, e4.name});
  }

  /** On a listing of backup logs only, with no failing removal, the
      cleanup leaves exactly the listed names that are not stale. */
  lemma CleanupOfBackupLogs(listing: seq<LogEntry>, today: string, current: string,
                            keep: set<string>, stale: set<string>)
    requires forall e :: e in listing ==> IsBackupLog(e.name)
    requires KeepSet(listing, today, current) == keep && StaleNames(listing, keep) == stale
    ensures var r := CleanLogs(listing, today, current, {});
      r.keep == keep && Removed(r.deletions) == stale && Survivors(listing, r) == Listed(listing) - stale
  {
    CleanOnlyBackupLogs(listing, today, current);
  }

  /** A `%Y%m%d_%H%M%S` stamp as far as the classification cares: fifteen
      characters, none of them an upper-case letter. */
  predicate Stamp(s: string) {
    |s| == 15 && NoUpper(s)
  }

  /** For a given kind, a run's log name determines its stamp. */
  lemma LogFileNameInjective(kind: string, s1: string, s2: string)
    ensures LogFileName(kind, s1) == LogFileName(kind, s2) <==> s1 == s2
  {
    var n := |LogPrefix + kind + "_"|;
    if LogFileName(kind, s1) == LogFileName(kind, s2) {
      assert |s1| == |s2|;
      forall k | 0 <= k < |s1| ensures s1[k] == s2[k] {
        assert LogFileName(kind, s1)[n + k] == s1[k];
        assert LogFileName(kind, s2)[n + k] == s2[k];
      }
    }
  }

  /** The classes of a run's log name with a `YYYYMMDD_HHMMSS` stamp. */
  lemma ExampleName(kind: string, stamp: string, today: string)
    requires kind == "FULL" || kind == "INCREMENTAL"
    requires Stamp(stamp) && |today| == 8
    ensures IsBackupLog(LogFileName(kind, stamp))
    ensures IsFullLog(LogFileName(kind, stamp)) <==> kind == "FULL"
    ensures IsTodayIncremental(LogFileName(kind, stamp), today)
      <==> kind == "INCREMENTAL" && stamp[..8] == today
  {
    assert AllUpper("FULL") && AllUpper("INCREMENTAL");
    assert (stamp + LogSuffix)[..8] == stamp[..8];
    LogNameClassification(kind, stamp, today);
  }

  /** On a listing of backup logs only, with no failing removal, the cleanup
      removes exactly the names outside the keep-set. */
  lemma CleanOnlyBackupLogs(listing: seq<LogEntry>, today: string, current: string)
    requires forall e :: e in listing ==> IsBackupLog(e.name)
    ensures var r := CleanLogs(listing, today, current, {});
      && r.keep == KeepSet(listing, today, current)
      && Removed(r.deletions) == StaleNames(listing, r.keep)
  {
    FilterKeepsAll((e: LogEntry) => IsBackupLog(e.name), listing);
    AllRemoved(CleanLogs(listing, today, current, {}).deletions);
  }

  lemma ExampleStale(e1: LogEntry, e2: LogEntry, e3: LogEntry, e4: LogEntry, e5: LogEntry, keep: set<string>)
    requires e2.name in keep && e3.name in keep && e5.name in keep
    requires e1.name !in keep && e4.name !in keep
    ensures StaleNames([e1, e2, e3, e4, e5], keep) == {e1.name, e4.name}
  {
    var listing := [e1, e2, e3, e4, e5];
    assert e1 in listing && e4 in listing;
    forall n | n in StaleNames(listing, keep) ensures n == e1.name || n == e4.name {
      var e :| e in listing && e.name !in keep && e.name == n;
    }
  }

  lemma ExampleListed(e1: LogEntry, e2: LogEntry, e3: LogEntry, e4: LogEntry, e5: LogEntry)
    ensures Listed([e1, e2, e3, e4, e5]) == {e1.name, e2.name, e3.name, e4.name, e5.name}
  {
    var listing := [e1, e2, e3, e4, e5];
    assert e1 in listing && e2 in listing && e3 in listing && e4 in listing && e5 in listing;
  }

  /** With no failing removal, everything attempted is removed. */
  lemma AllRemoved(ds: seq<Deletion>)
    requires forall d :: d in ds ==> d.ok
    ensures Removed(ds) == Attempted(ds)
  {
    forall n | n in Attempted(ds) ensures n in Removed(ds) {
      var d :| d in ds && d.name == n;
    }
  }

  lemma ExampleKeep(e1: LogEntry, e2: LogEntry, e3: LogEntry, e4: LogEntry, e5: LogEntry, today: string)
    requires forall e :: e in [e1, e2, e3, e4, e5] ==> IsBackupLog(e.name)
    requires IsFullLog(e1.name) && IsFullLog(e2.name) && !IsFullLog(e3.name) && !IsFullLog(e4.name) && !IsFullLog(e5.name)
    requires e1.ctime < e2.ctime
    requires !IsTodayIncremental(e1.name, today) && !IsTodayIncremental(e2.name, today) && !IsTodayIncremental(e4.name, today)
    requires IsTodayIncremental(e3.name, today) && IsTodayIncremental(e5.name, today)
    ensures KeepSet([e1, e2, e3, e4, e5], today, e5.name) == {e2.name, e3.name, e5.name}
  {
    FilterKeepsAll((e: LogEntry) => IsBackupLog(e.name), [e1, e2, e3, e4, e5]);
    ExampleLatestFull(e1, e2, e3, e4, e5);
    ExampleTodayIncrementals(e1, e2, e3, e4, e5, today);
  }

  lemma ExampleTodayIncrementals(e1: LogEntry, e2: LogEntry, e3: LogEntry, e4: LogEntry, e5: LogEntry, today: string)
    requires !IsTodayIncremental(e1.name, today) && !IsTodayIncremental(e2.name, today) && !IsTodayIncremental(e4.name, today)
    requires IsTodayIncremental(e3.name, today) && IsTodayIncremental(e5.name, today)
    ensures (set e | e in [e1, e2, e3, e4, e5] && IsTodayIncremental(e.name, today) :: e.name) == {e3.name, e5.name}
  {
    var listing := [e1, e2, e3, e4, e5];
    var incs := set e | e in listing && IsTodayIncremental(e.name, today) :: e.name;
    assert e3 in listing && e5 in listing;
    forall n | n in incs ensures n == e3.name || n == e5.name {
      var e :| e in listing && IsTodayIncremental(e.name, today) && e.name == n;
    }
  }

  lemma ExampleLatestFull(e1: LogEntry, e2: LogEntry, e3: LogEntry, e4: LogEntry, e5: LogEntry)
    requires IsFullLog(e1.name) && IsFullLog(e2.name) && !IsFullLog(e3.name) && !IsFullLog(e4.name) && !IsFullLog(e5.name)
    requires e1.ctime < e2.ctime
    ensures LatestFull([e1, e2, e3, e4, e5]) == Some(e2)
  {
    ExampleFulls(e1, e2, e3, e4, e5);
    assert MaxByCtime([e1, e2]) == 1 by {
      var xs := [e1, e2];
      assert MaxFrom(xs, 0, 1) == MaxFrom(xs, 1, 2) == 1;
    }
  }

  lemma ExampleFulls(e1: LogEntry, e2: LogEntry, e3: LogEntry, e4: LogEntry, e5: LogEntry)
    requires IsFullLog(e1.name) && IsFullLog(e2.name) && !IsFullLog(e3.name) && !IsFullLog(e4.name) && !IsFullLog(e5.name)
    ensures FullLogs([e1, e2, e3, e4, e5]) == [e1, e2]
  {
    var p := (e: LogEntry) => IsFullLog(e.name);
    var listing := [e1, e2, e3, e4, e5];
    assert listing[1..] == [e2, e3, e4, e5];
    assert listing[1..][1..] == [e3, e4, e5];
    FilterKeepsNone(p, [e3, e4, e5]);
    assert Filter(p, [e2, e3, e4, e5]) == [e2];
  }

}

=== FILE: selection.dfy ===
/** Restore generation selection (`find_latest_backup_sets`): list the run
    directories under the restore source, newest name first, and pick the
    first run holding a file whose name carries the FULL marker; for an
    INCREMENTAL request, independently pick the first run holding a file with
    the INCREMENTAL marker. The marker test is a substring test on file
    names, case-sensitive in `find_latest_backup_sets` (`CaseSensitive`); `IgnoreCase` is the
    test that recognises the names the backup writes (see README, Findings). */
module Selection {
  import opened Options
  import opened Text
  import opened Kinds
  import opened Listing
  import opened Ordering

  const FullMarker: string := "DB_BACKUP_FULL"
  const IncrementalMarker: string := "DB_BACKUP_INCREMENTAL"

  datatype MatchMode = CaseSensitive | IgnoreCase

  /** The marker that identifies a kind's database pieces. */
  function MarkerOf(k: Kind): (r: string)
    ensures r == "DB_BACKUP_" + Name(k)
  {
    match k
    case Full => FullMarker
    case Incremental => IncrementalMarker
  }

  /** `marker in f`, or its case-insensitive counterpart. */
  predicate NameHasMarker(mode: MatchMode, name: string, marker: string) {
    match mode
    case CaseSensitive => Contains(name, marker)
    case IgnoreCase => Contains(Upper(name), marker)
  }

  /** `any(marker in f for f in files)`. */
  predicate AnyHasMarker(mode: MatchMode, files: seq<string>, marker: string) {
    exists i :: 0 <= i < |files| && NameHasMarker(mode, files[i], marker)
  }

  /** `os.listdir(os.path.join(root, run))` for a run directory of the listing. */
  function ChildrenOf(es: seq<Entry>, run: string): seq<string> {
    if |es| == 0 then []
    else if es[0].Dir? && es[0].name == run then es[0].children
    else ChildrenOf(es[1..], run)
  }

  /** A directory listing never names two entries alike. */
  predicate UniqueNames(es: seq<Entry>) {
    forall i, j :: 0 <= i < j < |es| ==> es[i].name != es[j].name
  }

  /** The files seen for a run come from a sub-directory of that name. */
  lemma {:induction false} ChildrenOfListed(es: seq<Entry>, run: string, f: string)
    requires f in ChildrenOf(es, run)
    ensures exists c :: Dir(run, c) in es && f in c
  {
    if es[0].Dir? && es[0].name == run {
      assert Dir(run, es[0].children) == es[0];
    } else {
      ChildrenOfListed(es[1..], run, f);
      var c :| Dir(run, c) in es[1..] && f in c;
      assert Dir(run, c) in es;
    }
  }

  /** In a real listing, a run's files are those of its sub-directory. */
  lemma {:induction false} ChildrenOfUnique(es: seq<Entry>, run: string, c: seq<string>)
    requires UniqueNames(es) && Dir(run, c) in es
    ensures ChildrenOf(es, run) == c
  {
    if es[0] != Dir(run, c) {
      var j :| 0 <= j < |es| && es[j] == Dir(run, c);
      assert es[1..][j - 1] == Dir(run, c);
      assert UniqueNames(es[1..]) by {
        forall a, b | 0 <= a < b < |es[1..]| ensures es[1..][a].name != es[1..][b].name {
          assert es[1..][a] == es[a + 1] && es[1..][b] == es[b + 1];
        }
      }
      ChildrenOfUnique(es[1..], run, c);
    }
  }

  predicate RunMarked(es: seq<Entry>, mode: MatchMode, marker: string, run: string) {
    AnyHasMarker(mode, ChildrenOf(es, run), marker)
  }

  /** `sorted([...isdir...], reverse=True)`: each sub-directory name as
      often as the listing holds it, newest name first. */
  function Runs(es: seq<Entry>): (r: seq<string>)
    ensures SortedDesc(r)
    ensures multiset(r) == multiset(SubdirNames(es))
    ensures forall n :: n in r <==> HasDir(es, n)
  {
    var names := SubdirNames(es);
    var r := SortDesc(names);
    assert forall n :: n in r <==> n in names by {
      forall n ensures n in r <==> n in names {
        assert n in r <==> n in multiset(r);
        assert n in names <==> n in multiset(names);
      }
    }
    r
  }

  /** The scan `for run in backup_runs: ... break`, from position `k` on:
      the first marked run at or after `k`. */
  function FirstMarkedFrom(runs: seq<string>, es: seq<Entry>, mode: MatchMode, marker: string, k: nat): (r: Option<nat>)
    requires k <= |runs|
    ensures r.None? <==> forall i :: k <= i < |runs| ==> !RunMarked(es, mode, marker, runs[i])
    ensures r.Some? ==> (k <= r.value < |runs| && RunMarked(es, mode, marker, runs[r.value])
      && forall i :: k <= i < r.value ==> !RunMarked(es, mode, marker, runs[i]))
    decreases |runs| - k
  {
    if k == |runs| then None
    else if RunMarked(es, mode, marker, runs[k]) then Some(k)
    else FirstMarkedFrom(runs, es, mode, marker, k + 1)
  }

  function FirstMarked(runs: seq<string>, es: seq<Entry>, mode: MatchMode, marker: string): (r: Option<nat>)
    ensures r.None? <==> forall i :: 0 <= i < |runs| ==> !RunMarked(es, mode, marker, runs[i])
    ensures r.Some? ==> (r.value < |runs| && RunMarked(es, mode, marker, runs[r.value])
      && forall i :: 0 <= i < r.value ==> !RunMarked(es, mode, marker, runs[i]))
  {
    FirstMarkedFrom(runs, es, mode, marker, 0)
  }

  /** Python truthiness of an optional path: present and not empty. */
  predicate Truthy(p: Option<string>) {
    p.Some? && p.value != ""
  }

  /** The pair `(latest_full_run, latest_incremental_run)`. */
  datatype BackupSets = BackupSets(full: Option<string>, incremental: Option<string>)

  /** The run the scan stops at: of all run directories carrying `marker`,
      the one with the greatest name, or none when no run carries it. */
  function NewestMarked(es: seq<Entry>, mode: MatchMode, marker: string): (r: Option<string>)
    ensures r.None? <==> forall n :: HasDir(es, n) ==> !RunMarked(es, mode, marker, n)
    ensures r.Some? ==> HasDir(es, r.value) && RunMarked(es, mode, marker, r.value)
    ensures r.Some? ==> forall n :: HasDir(es, n) && RunMarked(es, mode, marker, n) ==> LexLe(n, r.value)
  {
    var runs := Runs(es);
    match FirstMarked(runs, es, mode, marker)
    case None =>
      assert forall n :: HasDir(es, n) ==> !RunMarked(es, mode, marker, n) by {
        forall n | HasDir(es, n) ensures !RunMarked(es, mode, marker, n) {
          var j :| 0 <= j < |runs| && runs[j] == n;
        }
      }
      None
    case Some(i) =>
      assert runs[i] in runs;
      assert forall n :: HasDir(es, n) && RunMarked(es, mode, marker, n) ==> LexLe(n, runs[i]) by {
        forall n | HasDir(es, n) && RunMarked(es, mode, marker, n) ensures LexLe(n, runs[i]) {
          var j :| 0 <= j < |runs| && runs[j] == n;
          if j == i {
            LexLeReflexive(n);
          }
        }
      }
      Some(runs[i])
  }

  /** `n` is the run with the greatest name among those carrying `marker`. */
  ghost predicate IsNewestMarked(es: seq<Entry>, mode: MatchMode, marker: string, n: string) {
    && HasDir(es, n)
    && RunMarked(es, mode, marker, n)
    && forall m :: HasDir(es, m) && RunMarked(es, mode, marker, m) ==> LexLe(m, n)
  }

  /** Some run directory carries `marker`. */
  ghost predicate SomeMarked(es: seq<Entry>, mode: MatchMode, marker: string) {
    exists n :: HasDir(es, n) && RunMarked(es, mode, marker, n)
  }

  /** The path the scan returns for `marker`: the newest marked run joined to
      the root, or nothing when no run carries the marker. */
  function LatestMarked(root: string, es: seq<Entry>, mode: MatchMode, marker: string): (r: Option<string>)
    ensures r.None? <==> !SomeMarked(es, mode, marker)
    ensures r.Some? ==> exists n :: IsNewestMarked(es, mode, marker, n) && r.value == PathJoin(root, n)
  {
    match NewestMarked(es, mode, marker)
    case None => None
    case Some(run) =>
      assert IsNewestMarked(es, mode, marker, run);
      Some(PathJoin(root, run))
  }

  /** `find_latest_backup_sets(backup_type)`. `source` is the listing of
      RESTORE_SOURCE_DIR (`root`), or None when it does not exist. */
  function FindLatestBackupSets(root: string, source: Option<seq<Entry>>, kind: Kind, mode: MatchMode): (r: BackupSets)
    ensures source.None? ==> r == BackupSets(None, None)
    // the FULL path is the newest FULL-marked run under the root
    ensures r.full.Some? ==> (source.Some? && r.full.value != ""
      && exists n :: IsNewestMarked(source.value, mode, FullMarker, n) && r.full.value == PathJoin(root, n))
    ensures source.Some? && root != "" && SomeMarked(source.value, mode, FullMarker) ==> r.full.Some?
    // without a FULL run nothing is returned, whatever the kind
    ensures r.full.None? ==> r.incremental.None?
    // the INCREMENTAL run is looked for only on an INCREMENTAL request, from
    // the newest run down, with no regard to where the FULL run was found
    ensures kind == Full ==> r.incremental.None?
    ensures r.incremental.Some? ==> (kind == Incremental && r.full.Some?
      && exists n :: IsNewestMarked(source.value, mode, IncrementalMarker, n) && r.incremental.value == PathJoin(root, n))
    ensures kind == Incremental && r.full.Some? && SomeMarked(source.value, mode, IncrementalMarker) ==> r.incremental.Some?
  {
    match source
    case None => BackupSets(None, None)
    case Some(es) =>
      var full := LatestMarked(root, es, mode, FullMarker);
      if !Truthy(full) then BackupSets(None, None)
      else if kind != Incremental then BackupSets(full, None)
      else BackupSets(full, LatestMarked(root, es, mode, IncrementalMarker))
  }
}

=== FILE: selection_examples.dfy ===
/** Worked selections over small restore sources, stated for any run names
    and any file lists that carry (or lack) the markers. */
module SelectionExamples {
  import opened Options
  import opened Text
  import opened Kinds
  import opened Listing
  import opened Ordering
  import opened Selection

  /** The two runs of a source: `rf` holds FULL pieces, `ri` INCREMENTAL ones. */
  function TwoRuns(rf: string, cf: seq<string>, ri: string, ci: seq<string>): seq<Entry> {
    [Dir(rf, cf), Dir(ri, ci)]
  }

  lemma TwoRunsListing(rf: string, cf: seq<string>, ri: string, ci: seq<string>)
    requires rf != ri
    ensures var es := TwoRuns(rf, cf, ri, ci);
      HasDir(es, rf) && HasDir(es, ri) && ChildrenOf(es, rf) == cf && ChildrenOf(es, ri) == ci
      && forall n :: HasDir(es, n) ==> n == rf || n == ri
  {
    var es := TwoRuns(rf, cf, ri, ci);
    assert Dir(rf, cf) in es && Dir(ri, ci) in es;
    forall n | HasDir(es, n) ensures n == rf || n == ri {
      var c :| Dir(n, c) in es;
    }
  }

  /** In a two-run source where one run alone carries `marker`, the scan for
      `marker` returns that run. */
  lemma TwoRunsLatest(root: string, mode: MatchMode, marker: string, rf: string, cf: seq<string>, ri: string, ci: seq<string>,
                      rm: string)
    requires rf != ri
    requires rm == rf ==> AnyHasMarker(mode, cf, marker) && !AnyHasMarker(mode, ci, marker)
    requires rm == ri ==> AnyHasMarker(mode, ci, marker) && !AnyHasMarker(mode, cf, marker)
    requires rm == rf || rm == ri
    ensures LatestMarked(root, TwoRuns(rf, cf, ri, ci), mode, marker) == Some(PathJoin(root, rm))
  {
    var es := TwoRuns(rf, cf, ri, ci);
    TwoRunsListing(rf, cf, ri, ci);
    assert SomeMarked(es, mode, marker) by {
      assert HasDir(es, rm) && RunMarked(es, mode, marker, rm);
    }
    var r := LatestMarked(root, es, mode, marker);
    var n :| IsNewestMarked(es, mode, marker, n) && r.value == PathJoin(root, n);
  }

  /** No ordering ties the incremental run to the FULL run: when the newest
      FULL run is newer than every incremental run, the restore still
      catalogs the older incremental run after it. */
  lemma IncrementalMayPrecedeFull(root: string, mode: MatchMode, rf: string, cf: seq<string>, ri: string, ci: seq<string>)
    requires root != "" && rf != ri && LexLe(ri, rf)
    requires AnyHasMarker(mode, cf, FullMarker) && !AnyHasMarker(mode, cf, IncrementalMarker)
    requires AnyHasMarker(mode, ci, IncrementalMarker) && !AnyHasMarker(mode, ci, FullMarker)
    ensures FindLatestBackupSets(root, Some(TwoRuns(rf, cf, ri, ci)), Incremental, mode)
      == BackupSets(Some(PathJoin(root, rf)), Some(PathJoin(root, ri)))
  {
    TwoRunsBoth(root, mode, rf, cf, ri, ci);
  }

  /** In the two-run source each marker picks its own run. */
  lemma TwoRunsBoth(root: string, mode: MatchMode, rf: string, cf: seq<string>, ri: string, ci: seq<string>)
    requires rf != ri
    requires AnyHasMarker(mode, cf, FullMarker) && !AnyHasMarker(mode, cf, IncrementalMarker)
    requires AnyHasMarker(mode, ci, IncrementalMarker) && !AnyHasMarker(mode, ci, FullMarker)
    ensures LatestMarked(root, TwoRuns(rf, cf, ri, ci), mode, FullMarker) == Some(PathJoin(root, rf))
    ensures LatestMarked(root, TwoRuns(rf, cf, ri, ci), mode, IncrementalMarker) == Some(PathJoin(root, ri))
  {
    TwoRunsLatest(root, mode, FullMarker, rf, cf, ri, ci, rf);
    TwoRunsLatest(root, mode, IncrementalMarker, rf, cf, ri, ci, ri);
  }

  /** Three runs, newest name first: `r3` holds INCREMENTAL pieces, `r2` and
      `r1` FULL ones. */
  function ThreeRuns(r3: string, c3: seq<string>, r2: string, c2: seq<string>, r1: string, c1: seq<string>): seq<Entry> {
    [Dir(r3, c3), Dir(r2, c2), Dir(r1, c1)]
  }

  lemma ThreeRunsListing(r3: string, c3: seq<string>, r2: string, c2: seq<string>, r1: string, c1: seq<string>)
    requires r1 != r2 && r2 != r3 && r1 != r3
    ensures var es := ThreeRuns(r3, c3, r2, c2, r1, c1);
      && HasDir(es, r1) && HasDir(es, r2) && HasDir(es, r3)
      && ChildrenOf(es, r1) == c1 && ChildrenOf(es, r2) == c2 && ChildrenOf(es, r3) == c3
      && forall n :: HasDir(es, n) ==> n == r1 || n == r2 || n == r3
  {
    var es := ThreeRuns(r3, c3, r2, c2, r1, c1);
    assert Dir(r1, c1) in es && Dir(r2, c2) in es && Dir(r3, c3) in es;
    assert es[1..] == [Dir(r2, c2), Dir(r1, c1)];
    assert es[1..][1..] == [Dir(r1, c1)];
    assert ChildrenOf(es[1..][1..], r1) == c1;
    forall n | HasDir(es, n) ensures n == r1 || n == r2 || n == r3 {
      var c :| Dir(n, c) in es;
    }
  }

  /** Of the two FULL runs the one with the greater name is chosen. */
  lemma ThreeRunsFull(root: string, mode: MatchMode, r3: string, c3: seq<string>, r2: string, c2: seq<string>,
                      r1: string, c1: seq<string>)
    requires r1 != r2 && r2 != r3 && r1 != r3 && LexLe(r1, r2)
    requires AnyHasMarker(mode, c2, FullMarker) && AnyHasMarker(mode, c1, FullMarker)
    requires !AnyHasMarker(mode, c3, FullMarker)
    ensures LatestMarked(root, ThreeRuns(r3, c3, r2, c2, r1, c1), mode, FullMarker) == Some(PathJoin(root, r2))
  {
    var es := ThreeRuns(r3, c3, r2, c2, r1, c1);
    ThreeRunsListing(r3, c3, r2, c2, r1, c1);
    assert SomeMarked(es, mode, FullMarker) by {
      assert HasDir(es, r2) && RunMarked(es, mode, FullMarker, r2);
    }
    var r := LatestMarked(root, es, mode, FullMarker);
    var n :| IsNewestMarked(es, mode, FullMarker, n) && r.value == PathJoin(root, n);
    assert n == r1 || n == r2 || n == r3;
    assert n != r3;
    assert LexLe(r2, n);
    LexLeAntisymmetric(r1, r2);
    assert n == r2;
  }

  lemma ThreeRunsIncremental(root: string, mode: MatchMode, r3: string, c3: seq<string>, r2: string, c2: seq<string>,
                             r1: string, c1: seq<string>)
    requires r1 != r2 && r2 != r3 && r1 != r3
    requires AnyHasMarker(mode, c3, IncrementalMarker)
    requires !AnyHasMarker(mode, c2, IncrementalMarker) && !AnyHasMarker(mode, c1, IncrementalMarker)
    ensures LatestMarked(root, ThreeRuns(r3, c3, r2, c2, r1, c1), mode, IncrementalMarker) == Some(PathJoin(root, r3))
  {
    var es := ThreeRuns(r3, c3, r2, c2, r1, c1);
    ThreeRunsListing(r3, c3, r2, c2, r1, c1);
    assert SomeMarked(es, mode, IncrementalMarker) by {
      assert HasDir(es, r3) && RunMarked(es, mode, IncrementalMarker, r3);
    }
    var r := LatestMarked(root, es, mode, IncrementalMarker);
    var n :| IsNewestMarked(es, mode, IncrementalMarker, n) && r.value == PathJoin(root, n);
    assert n == r1 || n == r2 || n == r3;
    assert n != r1 && n != r2;
  }

  /** The generation example: with runs `[r3 (INCREMENTAL), r2 (FULL),
      r1 (FULL)]` in descending name order, a FULL request selects `r2`
      alone, and an INCREMENTAL request selects `r2` and `r3`. */
  lemma GenerationScenario(root: string, mode: MatchMode, r3: string, c3: seq<string>, r2: string, c2: seq<string>,
                           r1: string, c1: seq<string>)
    requires root != ""
    requires r1 != r2 && r2 != r3 && r1 != r3 && LexLe(r1, r2) && LexLe(r2, r3)
    requires AnyHasMarker(mode, c3, IncrementalMarker) && !AnyHasMarker(mode, c3, FullMarker)
    requires AnyHasMarker(mode, c2, FullMarker) && !AnyHasMarker(mode, c2, IncrementalMarker)
    requires AnyHasMarker(mode, c1, FullMarker) && !AnyHasMarker(mode, c1, IncrementalMarker)
    ensures var es := ThreeRuns(r3, c3, r2, c2, r1, c1);
      && FindLatestBackupSets(root, Some(es), Full, mode) == BackupSets(Some(PathJoin(root, r2)), None)
      && FindLatestBackupSets(root, Some(es), Incremental, mode)
         == BackupSets(Some(PathJoin(root, r2)), Some(PathJoin(root, r3)))
  {
    ThreeRunsFull(root, mode, r3, c3, r2, c2, r1, c1);
    ThreeRunsIncremental(root, mode, r3, c3, r2, c2, r1, c1);
  }
}

=== FILE: text.dfy ===
/** String operations the two scripts rely on: prefix/suffix tests,
    Python's substring test `sub in s`, ASCII case mapping, the
    `"\n".join` / `split("\n")` pair used for script files, and
    `os.path.join` for a relative name (POSIX separator). */
module Text {

  const Newline: char := '\n'
  const Sep: char := '/'

  predicate StartsWith(s: string, p: string) {
    |p| <= |s| && s[..|p|] == p
  }

  predicate EndsWith(s: string, p: string) {
    |p| <= |s| && s[|s| - |p|..] == p
  }

  lemma StartsWithConcat(a: string, b: string)
    ensures StartsWith(a + b, a)
  {
    assert (a + b)[..|a|] == a;
  }

  /** Two strings that differ at a position inside `p` cannot both start with `p`. */
  lemma PrefixMismatch(s: string, p: string, k: nat)
    requires k < |p| && k < |s| && s[k] != p[k]
    ensures !StartsWith(s, p)
  {
    if |p| <= |s| {
      assert s[..|p|][k] == s[k];
    }
  }

  /** A character inside the first piece of a concatenation is that piece's. */
  lemma CharOfConcat(a: string, b: string, k: nat)
    requires k < |a|
    ensures (a + b)[k] == a[k]
  {
  }

  /** `sub` occurs in `s` starting at position `i`. */
  predicate OccursAt(s: string, sub: string, i: int) {
    0 <= i && i + |sub| <= |s| && s[i..i + |sub|] == sub
  }

  /** Python's `sub in s`, computed by scanning from the left. */
  predicate Contains(s: string, sub: string)
    decreases |s|
  {
    StartsWith(s, sub) || (|s| > 0 && Contains(s[1..], sub))
  }

  /** An occurrence at any position is found by the scan. */
  lemma {:induction false} OccursContains(s: string, sub: string, i: int)
    requires OccursAt(s, sub, i)
    ensures Contains(s, sub)
    decreases i
  {
    if i == 0 {
      assert s[..|sub|] == s[0..0 + |sub|];
    } else {
      assert s[1..][i - 1..i - 1 + |sub|] == s[i..i + |sub|];
      OccursContains(s[1..], sub, i - 1);
    }
  }

  /** The scan only succeeds at a real occurrence. */
  lemma {:induction false} ContainsWitness(s: string, sub: string) returns (i: nat)
    requires Contains(s, sub)
    ensures OccursAt(s, sub, i)
    decreases |s|
  {
    if StartsWith(s, sub) {
      i := 0;
      assert s[0..0 + |sub|] == s[..|sub|];
    } else {
      var j := ContainsWitness(s[1..], sub);
      assert s[1..][j..j + |sub|] == s[j + 1..j + 1 + |sub|];
      i := j + 1;
    }
  }

  /** The scan agrees with the positional definition of a substring. */
  lemma ContainsIffOccurs(s: string, sub: string)
    ensures Contains(s, sub) <==> exists i :: OccursAt(s, sub, i)
  {
    if Contains(s, sub) {
      var i := ContainsWitness(s, sub);
    }
    forall i | OccursAt(s, sub, i) ensures Contains(s, sub) {
      OccursContains(s, sub, i);
    }
  }

  /** A string contains every piece it was concatenated from. */
  lemma ContainsMiddle(a: string, sub: string, b: string)
    ensures Contains(a + sub + b, sub)
  {
    var s := a + sub + b;
    assert s[|a|..|a| + |sub|] == sub;
    OccursContains(s, sub, |a|);
  }

  function UpperChar(c: char): char {
    if 'a' <= c <= 'z' then (c as int - 32) as char else c
  }

  function LowerChar(c: char): char {
    if 'A' <= c <= 'Z' then (c as int + 32) as char else c
  }

  /** `str.upper()` restricted to ASCII letters. */
  function Upper(s: string): (r: string)
    ensures |r| == |s|
    ensures forall i :: 0 <= i < |s| ==> r[i] == UpperChar(s[i])
  {
    if |s| == 0 then "" else [UpperChar(s[0])] + Upper(s[1..])
  }

  /** `str.lower()` restricted to ASCII letters. */
  function Lower(s: string): (r: string)
    ensures |r| == |s|
    ensures forall i :: 0 <= i < |s| ==> r[i] == LowerChar(s[i])
  {
    if |s| == 0 then "" else [LowerChar(s[0])] + Lower(s[1..])
  }

  /** A string whose characters upper-case one by one to `t` upper-cases
      to `t`. */
  lemma {:induction false} UpperOfChars(s: string, t: string)
    requires |s| == |t| && forall i :: 0 <= i < |s| ==> UpperChar(s[i]) == t[i]
    ensures Upper(s) == t
  {
    if |s| > 0 {
      UpperOfChars(s[1..], t[1..]);
      assert t == [t[0]] + t[1..];
    }
  }

  /** A string whose characters lower-case one by one to `t` lower-cases
      to `t`. */
  lemma {:induction false} LowerOfChars(s: string, t: string)
    requires |s| == |t| && forall i :: 0 <= i < |s| ==> LowerChar(s[i]) == t[i]
    ensures Lower(s) == t
  {
    if |s| > 0 {
      LowerOfChars(s[1..], t[1..]);
      assert t == [t[0]] + t[1..];
    }
  }

  lemma UpperConcat(a: string, b: string)
    ensures Upper(a + b) == Upper(a) + Upper(b)
  {
    assert forall i :: 0 <= i < |a + b| ==> Upper(a + b)[i] == (Upper(a) + Upper(b))[i];
  }

  predicate IsUpperLetter(c: char) {
    'A' <= c <= 'Z'
  }

  predicate AllUpper(s: string) {
    forall i :: 0 <= i < |s| ==> IsUpperLetter(s[i])
  }

  predicate NoUpper(s: string) {
    forall i :: 0 <= i < |s| ==> !IsUpperLetter(s[i])
  }

  /** In `a + k + b` with upper-case letters only in `k`, the upper-case
      positions are exactly those of `k`. */
  lemma UpperRegion(a: string, k: string, b: string, q: int)
    requires NoUpper(a) && AllUpper(k) && NoUpper(b)
    requires 0 <= q < |a + k + b|
    ensures IsUpperLetter((a + k + b)[q]) <==> |a| <= q < |a| + |k|
  {
    var s := a + k + b;
    if q < |a| {
      assert s[q] == a[q];
    } else if q < |a| + |k| {
      assert s[q] == k[q - |a|];
    } else {
      assert s[q] == b[q - |a| - |k|];
    }
  }

  /** A string with two upper-case letters separated by one other character
      cannot occur in `a + k + b` when the upper-case letters of the latter
      form the one block `k`. */
  lemma UpperGapAbsent(a: string, k: string, b: string, sub: string, j: nat)
    requires NoUpper(a) && AllUpper(k) && NoUpper(b)
    requires j + 2 < |sub|
    requires IsUpperLetter(sub[j]) && !IsUpperLetter(sub[j + 1]) && IsUpperLetter(sub[j + 2])
    ensures !Contains(a + k + b, sub)
  {
    if Contains(a + k + b, sub) {
      var s := a + k + b;
      var i := ContainsWitness(s, sub);
      OccursChar(s, sub, i, j);
      OccursChar(s, sub, i, j + 1);
      OccursChar(s, sub, i, j + 2);
      UpperRegion(a, k, b, i + j);
      UpperRegion(a, k, b, i + j + 1);
      UpperRegion(a, k, b, i + j + 2);
      assert false;
    }
  }

  /** A character of an occurrence is the character of `sub` it matches. */
  lemma OccursChar(s: string, sub: string, i: int, t: int)
    requires OccursAt(s, sub, i) && 0 <= t < |sub|
    ensures s[i + t] == sub[t]
  {
    assert s[i..i + |sub|][t] == s[i + t];
  }

  /** The characters of `_WORD_rest` by position. */
  lemma MarkerChars(w: string, rest: string, t: int)
    requires 0 <= t < |"_" + w + "_" + rest|
    ensures t == 0 ==> ("_" + w + "_" + rest)[t] == '_'
    ensures 1 <= t <= |w| ==> ("_" + w + "_" + rest)[t] == w[t - 1]
    ensures t == |w| + 1 ==> ("_" + w + "_" + rest)[t] == '_'
    ensures |w| + 2 <= t ==> ("_" + w + "_" + rest)[t] == rest[t - |w| - 2]
  {
  }

  /** Where an `_WORD_` marker can sit: its word covers exactly the
      upper-case region `k`. */
  lemma MarkerPosition(a: string, k: string, b: string, w: string, rest: string, i: int)
    requires NoUpper(a) && AllUpper(k) && NoUpper(b)
    requires |w| > 0 && AllUpper(w)
    requires OccursAt(a + k + b, "_" + w + "_" + rest, i)
    ensures i + 1 == |a| && |w| == |k|
  {
    var s := a + k + b;
    var sub := "_" + w + "_" + rest;
    OccursChar(s, sub, i, 0);
    MarkerChars(w, rest, 0);
    OccursChar(s, sub, i, 1);
    MarkerChars(w, rest, 1);
    OccursChar(s, sub, i, |w|);
    MarkerChars(w, rest, |w|);
    OccursChar(s, sub, i, |w| + 1);
    MarkerChars(w, rest, |w| + 1);
    UpperRegion(a, k, b, i);
    UpperRegion(a, k, b, i + 1);
    UpperRegion(a, k, b, i + |w|);
    UpperRegion(a, k, b, i + |w| + 1);
  }

  /** The word of a marker sitting on the region `k` is `k`. */
  lemma MarkerWord(a: string, k: string, b: string, w: string, rest: string, i: int)
    requires OccursAt(a + k + b, "_" + w + "_" + rest, i)
    requires i + 1 == |a| && |w| == |k|
    ensures k == w
  {
    forall t | 0 <= t < |k| ensures k[t] == w[t] {
      OccursChar(a + k + b, "_" + w + "_" + rest, i, t + 1);
      MarkerChars(w, rest, t + 1);
      assert (a + k + b)[|a| + t] == k[t];
    }
  }

  /** After a marker sitting on the region `k`, `b` continues as `_rest`. */
  lemma MarkerRest(a: string, k: string, b: string, w: string, rest: string, i: int)
    requires OccursAt(a + k + b, "_" + w + "_" + rest, i)
    requires i + 1 == |a| && |w| == |k|
    ensures StartsWith(b, "_" + rest)
  {
    var s := a + k + b;
    var sub := "_" + w + "_" + rest;
    OccursChar(s, sub, i, |w| + 1);
    MarkerChars(w, rest, |w| + 1);
    assert s[|a| + |k|] == b[0];
    forall t | 0 <= t < |rest| ensures b[1 + t] == rest[t] {
      OccursChar(s, sub, i, |w| + 2 + t);
      MarkerChars(w, rest, |w| + 2 + t);
      assert s[|a| + |k| + 1 + t] == b[1 + t];
    }
    assert b[..1 + |rest|] == "_" + rest;
  }

  /** An `_WORD_rest` marker, WORD upper-case, can only occur in `a + k + b`
      (upper-case letters only in the word `k`) as `k` itself, with `b`
      continuing as `_rest`. */
  lemma WordMarker(a: string, k: string, b: string, w: string, rest: string)
    requires NoUpper(a) && AllUpper(k) && NoUpper(b)
    requires |w| > 0 && AllUpper(w)
    requires Contains(a + k + b, "_" + w + "_" + rest)
    ensures k == w && StartsWith(b, "_" + rest)
  {
    var i := ContainsWitness(a + k + b, "_" + w + "_" + rest);
    MarkerPosition(a, k, b, w, rest, i);
    MarkerWord(a, k, b, w, rest, i);
    MarkerRest(a, k, b, w, rest, i);
  }

  /** Conversely, `a + k + b` holds the marker `_k_rest` when `a` ends with
      an underscore and `b` continues as `_rest`. */
  lemma WordMarkerPresent(a: string, k: string, b: string, rest: string)
    requires |a| > 0 && a[|a| - 1] == '_'
    requires StartsWith(b, "_" + rest)
    ensures Contains(a + k + b, "_" + k + "_" + rest)
  {
    var s := a + k + b;
    var tail := b[1 + |rest|..];
    var pre := a[..|a| - 1];
    assert b == "_" + rest + tail;
    assert a == pre + "_";
    SeqAssoc5(pre, "_", k, "_" + rest, tail);
    var sub := "_" + k + ("_" + rest);
    assert sub == "_" + k + "_" + rest;
    assert s == pre + sub + tail;
    ContainsMiddle(pre, sub, tail);
  }

  /** Regrouping a five-piece concatenation around its middle three. */
  lemma SeqAssoc5(p: string, u: string, k: string, r: string, t: string)
    ensures (p + u) + k + (r + t) == p + (u + k + r) + t
  {
  }

  /** `"\n".join(lines)`. */
  function JoinLines(lines: seq<string>): string
    decreases |lines|
  {
    if |lines| == 0 then ""
    else if |lines| == 1 then lines[0]
    else lines[0] + [Newline] + JoinLines(lines[1..])
  }

  /** `s.split("\n")`: always at least one piece. */
  function SplitLines(s: string): (r: seq<string>)
    ensures |r| >= 1
    decreases |s|
  {
    if |s| == 0 then [""]
    else
      var rest := SplitLines(s[1..]);
      if s[0] == Newline then [""] + rest
      else [[s[0]] + rest[0]] + rest[1..]
  }

  predicate NoNewline(s: string) {
    Newline !in s
  }

  predicate AllLinesPlain(lines: seq<string>) {
    forall i :: 0 <= i < |lines| ==> NoNewline(lines[i])
  }

  lemma {:induction false} SplitPlain(a: string)
    requires NoNewline(a)
    ensures SplitLines(a) == [a]
    decreases |a|
  {
    if |a| > 0 {
      assert a[0] in a;
      assert forall c :: c in a[1..] ==> c in a;
      SplitPlain(a[1..]);
      assert [a[0]] + a[1..] == a;
    }
  }

  lemma {:induction false} SplitAfterLine(a: string, b: string)
    requires NoNewline(a)
    ensures SplitLines(a + [Newline] + b) == [a] + SplitLines(b)
    decreases |a|
  {
    var s := a + [Newline] + b;
    if |a| == 0 {
      assert s[1..] == b;
    } else {
      assert a[0] in a;
      assert forall c :: c in a[1..] ==> c in a;
      assert s[1..] == a[1..] + [Newline] + b;
      SplitAfterLine(a[1..], b);
      assert [a[0]] + a[1..] == a;
    }
  }

  /** Writing newline-free lines with `"\n".join` and reading the file back
      with `split("\n")` yields the same lines. */
  lemma {:induction false} SplitJoin(lines: seq<string>)
    requires |lines| >= 1
    requires AllLinesPlain(lines)
    ensures SplitLines(JoinLines(lines)) == lines
    decreases |lines|
  {
    if |lines| == 1 {
      SplitPlain(lines[0]);
    } else {
      assert NoNewline(lines[0]);
      SplitAfterLine(lines[0], JoinLines(lines[1..]));
      SplitJoin(lines[1..]);
      assert [lines[0]] + lines[1..] == lines;
    }
  }

  /** The pieces of a split never hold a newline. */
  lemma {:induction false} SplitPiecesPlain(s: string)
    ensures AllLinesPlain(SplitLines(s))
    decreases |s|
  {
    if |s| > 0 {
      SplitPiecesPlain(s[1..]);
      var rest := SplitLines(s[1..]);
      if s[0] != Newline {
        assert NoNewline(rest[0]);
        assert NoNewline([s[0]] + rest[0]);
      }
    }
  }

  /** Joining the pieces of a split gives back the original text. */
  lemma {:induction false} JoinSplit(s: string)
    ensures JoinLines(SplitLines(s)) == s
    decreases |s|
  {
    if |s| > 0 {
      JoinSplit(s[1..]);
      var rest := SplitLines(s[1..]);
      if s[0] == Newline {
        assert SplitLines(s) == [""] + rest;
        assert ([""] + rest)[1..] == rest;
        assert JoinLines([""] + rest) == "" + [Newline] + JoinLines(rest);
        assert s == [s[0]] + s[1..];
      } else {
        var r := [[s[0]] + rest[0]] + rest[1..];
        assert SplitLines(s) == r;
        if |rest| == 1 {
          assert JoinLines(r) == [s[0]] + rest[0];
          assert JoinLines(rest) == rest[0];
        } else {
          assert r[1..] == rest[1..];
          assert JoinLines(r) == [s[0]] + rest[0] + [Newline] + JoinLines(rest[1..]);
          assert JoinLines(rest) == rest[0] + [Newline] + JoinLines(rest[1..]);
        }
        assert s == [s[0]] + s[1..];
      }
    }
  }

  /** `os.path.join(dir, name)` for a relative, non-empty `name`. */
  function PathJoin(dir: string, name: string): (r: string)
    ensures StartsWith(r, dir) && EndsWith(r, name)
    ensures |dir| + |name| <= |r| <= |dir| + |name| + 1
  {
    if |dir| == 0 then name
    else if dir[|dir| - 1] == Sep then dir + name
    else dir + [Sep] + name
  }

  /** Joining under one directory never merges two different names. */
  lemma PathJoinInjective(dir: string, a: string, b: string)
    requires PathJoin(dir, a) == PathJoin(dir, b)
    ensures a == b
  {
    var ra := PathJoin(dir, a);
    var k := |ra| - |a|;
    assert |a| == |b|;
    assert a == ra[k..] == b;
  }
}

=== FILE: uploads.dfy ===
/** Object-store keys and the per-file upload loop of the backup's `main`.
    The S3 client is replaced by the set of keys whose upload fails. */
module Uploads {
  import opened Options
  import opened Text
  import opened Kinds

  /** `{S3_BACKUP_PREFIX}{kind.lower()}/{file}`. */
  function ArtifactKey(prefix: string, kind: Kind, file: string): string {
    prefix + Folder(kind) + file
  }

  /** `{S3_LOG_PREFIX}{basename}`. */
  function LogKey(prefix: string, logName: string): string {
    prefix + logName
  }

  /** Recovers kind and file name from an artifact key under `prefix`. */
  function ParseArtifactKey(prefix: string, key: string): Option<(Kind, string)> {
    if !StartsWith(key, prefix) then None
    else
      var rest := key[|prefix|..];
      if StartsWith(rest, "full/") then Some((Full, rest[5..]))
      else if StartsWith(rest, "incremental/") then Some((Incremental, rest[12..]))
      else None
  }

  /** The folder a kind's artifacts go to. */
  function Folder(kind: Kind): string {
    match kind
    case Full => "full/"
    case Incremental => "incremental/"
  }

  /** The folder is the kind's name in lower case followed by `/`, as
      `kind.lower() + "/"` spells it. */
  lemma FolderIsLowerName(kind: Kind)
    ensures Folder(kind) == Lower(Name(kind)) + "/"
  {
    match kind
    case Full => LowerFull();
    case Incremental => LowerIncremental();
  }

  /** A key determines the kind and file it was built from. */
  lemma ArtifactKeyRoundTrip(prefix: string, kind: Kind, file: string)
    ensures ParseArtifactKey(prefix, ArtifactKey(prefix, kind, file)) == Some((kind, file))
  {
    var key := ArtifactKey(prefix, kind, file);
    assert key == prefix + (Folder(kind) + file);
    StartsWithConcat(prefix, Folder(kind) + file);
    assert key[|prefix|..] == Folder(kind) + file;
    if kind == Full {
      ParseFolder("full/", file);
    } else {
      ParseFolder("incremental/", file);
      PrefixMismatch("incremental/" + file, "full/", 0);
    }
  }

  lemma ParseFolder(folder: string, file: string)
    ensures StartsWith(folder + file, folder)
    ensures (folder + file)[|folder|..] == file
  {
    StartsWithConcat(folder, file);
  }

  /** No two artifacts of any kinds share a key unless kind and file agree. */
  lemma ArtifactKeyInjective(prefix: string, k1: Kind, f1: string, k2: Kind, f2: string)
    ensures ArtifactKey(prefix, k1, f1) == ArtifactKey(prefix, k2, f2) <==> k1 == k2 && f1 == f2
  {
    ArtifactKeyRoundTrip(prefix, k1, f1);
    ArtifactKeyRoundTrip(prefix, k2, f2);
  }

  /** One upload attempt: the local file, its key, and whether it succeeded. */
  datatype Upload = Upload(file: string, key: string, ok: bool)

  /** Every file of the run is attempted, in listing order, under its own
      key; an earlier failure never skips a later file. */
  function UploadEach(prefix: string, kind: Kind, files: seq<string>, failedKeys: set<string>): (r: seq<Upload>)
    ensures |r| == |files|
    ensures forall i :: 0 <= i < |files| ==>
      && r[i].file == files[i]
      && r[i].key == ArtifactKey(prefix, kind, files[i])
      && (r[i].ok <==> r[i].key !in failedKeys)
  {
    if |files| == 0 then []
    else
      var key := ArtifactKey(prefix, kind, files[0]);
      [Upload(files[0], key, key !in failedKeys)] + UploadEach(prefix, kind, files[1..], failedKeys)
  }

  /** `all_uploads_successful`: starts true and is cleared by any failure. */
  function AllSucceeded(attempts: seq<Upload>): (b: bool)
    ensures b <==> forall i :: 0 <= i < |attempts| ==> attempts[i].ok
  {
    if |attempts| == 0 then true
    else attempts[0].ok && AllSucceeded(attempts[1..])
  }

  /** The loop of `main` as written: one attempt per file and a flag that
      any failure clears. */
  method UploadLoop(prefix: string, kind: Kind, files: seq<string>, failedKeys: set<string>)
    returns (attempts: seq<Upload>, allOk: bool)
    ensures attempts == UploadEach(prefix, kind, files, failedKeys)
    ensures allOk <==> forall i :: 0 <= i < |files| ==> ArtifactKey(prefix, kind, files[i]) !in failedKeys
  {
    ghost var expected := UploadEach(prefix, kind, files, failedKeys);
    attempts := [];
    allOk := true;
    var i := 0;
    while i < |files|
      invariant 0 <= i <= |files|
      invariant attempts == expected[..i]
      invariant allOk <==> forall j :: 0 <= j < |attempts| ==> attempts[j].ok
    {
      var key := ArtifactKey(prefix, kind, files[i]);
      var ok := key !in failedKeys;
      var u := Upload(files[i], key, ok);
      assert expected[i] == u;
      assert expected[..i + 1] == expected[..i] + [u];
      assert forall j :: 0 <= j < |attempts| ==> (attempts + [u])[j] == attempts[j];
      if !ok {
        allOk := false;
      }
      attempts := attempts + [u];
      i := i + 1;
    }
    assert expected[..i] == expected;
  }

}
